=== FILE: README.md ===
# Hotel booking cleaning and preprocessing, modelled in Dafny

This project models the two data functions of `data_cleaning.py`, a pandas pipeline over
hotel booking records.

`clean_df` runs six steps in order:

- it drops the sparse `company` and `agent` columns;
- it fills missing countries with the mode;
- it drops rows without a children count;
- it folds meal "Undefined" into "SC";
- it deletes three known bad records;
- it removes bookings with nobody in them.

`preprocessing_df` works as follows:

- it drops `adr_pp` and a fixed list of unused columns;
- it splits `reservation_status_date` into year, month and day;
- it encodes the object columns with eight fixed lookup tables;
- it log-transforms four numeric columns and fills the missing `adr` values with their mean;
- it returns `X`, the encoded columns followed by the numeric ones, together with the label column `y`.

A data frame is a `Frame`:

- a sequence of `Column`s, each with a name and a dtype (`Object`, `Int64` or `Float64`);
- a sequence of `Row`s, each with an index label and a map from column names to `Cell`s;
- a `Cell` is `Str`, `Num` (a real) or `NaN`.

`Wf` says that every row has exactly one cell per column. Every pandas call that can raise
(`KeyError` on a missing column or label, `[0]` on an empty mode, an unparsable date)
returns a `Result`, and its `Err` cases are stated as well as its `Ok` cases.

Files and modules:

- `results.dfy`: `Results`, the `Option`/`Result` wrappers.
- `seqs.dfy`: `Seqs`, order-preserving filter, map, count and the subsequence relation.
- `frames.dfy`: `Frames`, the frame, its well-formedness, and the pandas operations the code uses.
- `mode.dfy`: `Mode`, `Series.mode()[0]`: the most frequent value, ties broken by pandas' sort order.
- `cleaning.dfy`: `Cleaning`, `clean_df`, step by step.
- `encoding.dfy`: `Encoding`, the `mappings` tables and `replace` with a nested dict.
- `preprocessing.dfy`: `Preprocessing`, `preprocessing_df`.
- `pipeline.dfy`: `Pipeline`, a property of the two functions run one after the other.

Behaviours of the code worth knowing, all modelled as the code has them:

- `Series.mode()` returns its modes sorted, so `mode()[0]` is the least of the most frequent values, not the first one encountered.
- `replace` with a nested dict leaves a label that its column's table does not list unchanged.
- `adr_pp` is dropped unconditionally, and the drop raises when it is absent.
- `df.drop(328)` runs after the `dropna` on children. `clean_df` therefore fails when record 328 had no children count (`Cleaning.CleanDf`, the postcondition about record 328).
- The two `sort_values` calls (lines 31 and 35) discard their result, so they reorder nothing and `CleanDf` keeps the input's row order. Each still raises `KeyError` when its column is absent, and the model keeps that: with `babies` missing and record 328 present, `clean_df` fails on `babies` before it looks for 46619 and 78656 (`Cleaning.DropOutliers`).
- `year` is an integer (or float) column after the date split. It is never among the object columns, so the `'year'` table never applies (`Preprocessing.YearNotEncoded`).

## Model

| member | source | states |
|---|---|---|
| Frames.DropColumns | data_cleaning.py:19-20 | `drop(columns)` raises exactly when a name is not a column; otherwise it removes exactly those columns, keeps the others in order with their cells, and keeps every row and its label |
| Frames.SelectColumns | data_cleaning.py:74-75 | `dataset[cat_cols]` keeps the chosen columns in order, with their cells, for every row |
| Frames.SetColumn | data_cleaning.py:67-70 | assigning a column sets the cell of every row, adds the name when new, and leaves every other column untouched |
| Frames.Concat | data_cleaning.py:105 | `pd.concat(axis=1)` puts the first frame's columns before the second's and takes each cell from the frame that has it |
| Frames.FillNa | data_cleaning.py:23 | `fillna` changes only the missing cells of its column, and afterwards that column has no missing cell |
| Frames.DropNa | data_cleaning.py:25 | `dropna(subset=[name])` removes exactly the rows missing that cell, keeps the rest in order, and shrinks the frame by the number of missing cells |
| Frames.ReplaceValue | data_cleaning.py:28 | `replace(from, to)` on a column turns every `from` into `to` and changes no other row or column |
| Frames.DropLabels | data_cleaning.py:33 | `drop(labels, axis=0)` raises exactly when a label is absent; otherwise it removes exactly the rows with those labels, in order |
| Seqs.SubseqFilter | data_cleaning.py:25-41 | a subsequence whose elements all pass a mask and that is as long as the mask's survivors is the filtered sequence itself: order, membership and count determine a row filter |
| Frames.FilterRows | data_cleaning.py:40-41 | `df.loc[mask]` keeps exactly the rows the mask keeps, in order, and loses as many rows as the mask rejects |
| Frames.SortValuesDiscarded | data_cleaning.py:31-35 | a `sort_values` whose result is discarded raises exactly when its column is absent and otherwise leaves the frame as it was |
| Frames.Values | data_cleaning.py:22 | the values of a column are exactly its non-missing cells, each occurring as many times as the column holds it |
| Mode.Best | data_cleaning.py:22 | the chosen candidate beats every candidate: it is strictly more frequent, or as frequent and not greater |
| Mode.ModeOf | data_cleaning.py:22 | `mode()[0]` is absent exactly for no values, and is otherwise a most frequent value that is least among ties |
| Mode.ModeUnique | data_cleaning.py:22 | at most one value satisfies the mode definition, so the fill value is determined by the column |
| Mode.ModeSameValues | data_cleaning.py:22 | the mode depends on the values only through how often each occurs |
| Mode.ColumnMode | data_cleaning.py:22 | fails exactly when the column is absent or has no value; otherwise it returns a present value that is the mode |
| Cleaning.DropSparseColumns | data_cleaning.py:19-20 | fails exactly when `company` or `agent` is absent; the schema loses exactly those two names; rows, labels and other cells are kept |
| Cleaning.ImputeCountry | data_cleaning.py:22-23 | fails exactly when there is no country column or no present country; afterwards no country is missing; rows with a country are unchanged; a filled cell holds the mode |
| Cleaning.NormalizeMeal | data_cleaning.py:27-28 | no meal is "Undefined" afterwards; each "Undefined" became "SC"; every other row is unchanged |
| Cleaning.MealCountRows | data_cleaning.py:28 | over any rows, the "SC" count after the rewrite is the old "SC" count plus the old "Undefined" count |
| Cleaning.MealCount | data_cleaning.py:28 | the same count identity for the step's output |
| Cleaning.MealIdempotent | data_cleaning.py:28 | rewriting the meals a second time changes nothing |
| Cleaning.DropOutliers | data_cleaning.py:30-37 | fails exactly when children or babies is not a column or one of 328, 46619, 78656 is not a label, and on `babies` when 328 is present but `babies` is not; otherwise its rows are exactly the input's rows without those labels, each occurrence kept, in order (the two label drops fused into one filter) |
| Cleaning.DropZeroOccupants | data_cleaning.py:39-43 | fails exactly when children, adults or babies is absent; no kept row has zero occupants; every occupied row is kept, in order; exactly as many rows go as have zero occupants |
| Cleaning.CleanDf | data_cleaning.py:9-43 | the output schema is the input's minus company and agent; every input row with a children count, none of the three labels and an occupant comes out, and every output row is such an input row, with the same label and cells except a missing country filled with the mode and an "Undefined" meal read as "SC"; the output's labels are those of the kept input rows, each as often and in the order the input has it; success needs record 328 to have had a children count |
| Cleaning.CleanKeepsOrder | data_cleaning.py:25-41 | the labels after the six steps are a subsequence of the input labels |
| Cleaning.OutlierNeedsChildren | data_cleaning.py:25-33 | if `drop(328)` finds record 328, then the input had record 328 with a children count |
| Encoding.Lookup | data_cleaning.py:77-92 | a label's code is an entry of the table; there is none exactly when no entry has that label |
| Encoding.Replace | data_cleaning.py:94 | listed labels become their codes; unlisted labels and missing cells stay; no row, label or column changes |
| Encoding.TableFacts | data_cleaning.py:77-92 | each of the eight tables has distinct codes and no label equal to a code |
| Encoding.DistinctCodesInjective | data_cleaning.py:77-92 | distinct codes make a table injective: a code comes from one label only |
| Encoding.TablesInjective | data_cleaning.py:77-92 | every column's table is injective |
| Encoding.DepositCodes | data_cleaning.py:89 | `deposit_type` codes are exactly 0, 1 and 3 |
| Encoding.ReplaceIdempotent | data_cleaning.py:94 | for tables whose codes are not labels, replacing twice equals replacing once |
| Encoding.EncodeIdempotent | data_cleaning.py:94 | applying `mappings` twice equals applying it once |
| Encoding.MealFourIsUndefined | data_cleaning.py:79 | a meal encodes to 4 exactly when it was "Undefined" or already the number 4 |
| Encoding.MealNeverFour | data_cleaning.py:94 | with no "Undefined" meal, the encoding yields 4 only where the meal already was 4 |
| Preprocessing.ParseDates | data_cleaning.py:67 | `to_datetime` raises exactly when a present cell does not parse; otherwise missing cells give NaT and present cells give their parse |
| Preprocessing.Parts | data_cleaning.py:68-70 | `.dt.year/.month/.day` gives each date's field and a missing value for NaT |
| Preprocessing.PartType | data_cleaning.py:68-70 | a date part column is never of object dtype; it is an integer column exactly when no date is NaT |
| Preprocessing.SetPart | data_cleaning.py:68-70 | the part column holds the parts of the parsed dates, is not of object dtype, and the other columns are untouched |
| Preprocessing.SplitDate | data_cleaning.py:68-71 | fails exactly when a dropped column is absent; year, month and day replace the date and month-name columns, with non-object dtypes; other columns are untouched |
| Preprocessing.ExtractDate | data_cleaning.py:66-71 | without the date column nothing changes; otherwise it fails exactly on a missing month-name column or an unparsable date, and every row's year, month and day are those of its parsed date |
| Preprocessing.Prepare | data_cleaning.py:51-71 | fails when `adr_pp` or a useless column is absent; the schema is the input's minus those names, with the date split when present; on success every present date parses, and each row's year, month and day are those of the input row's parsed `reservation_status_date` (missing where the date is missing); rows, labels, and the cells and dtypes of untouched columns are kept |
| Preprocessing.LogCells | data_cleaning.py:99 | `log1p` maps every number and keeps every missing value |
| Preprocessing.LogColumn | data_cleaning.py:99 | fails exactly when the column is absent; the column holds the logs of its old cells, becomes float, and nothing else changes |
| Preprocessing.LogAll | data_cleaning.py:98-99 | fails exactly when one of the columns is absent; each listed column holds the logs of its old cells; other columns are untouched |
| Preprocessing.Numbers | data_cleaning.py:102 | exactly the numbers of the column, each as many times as the column holds it, with missing values skipped |
| Preprocessing.MeanCell | data_cleaning.py:102 | the mean is missing exactly when the column holds no number |
| Preprocessing.Numeric | data_cleaning.py:97-102 | fails exactly when the target column is absent or a log column is not among the non-object columns; the columns are the non-object ones minus the target, none of object dtype; every cell is the feature the code computes |
| Preprocessing.Assemble | data_cleaning.py:74-105 | `X` has the input's rows and labels, the object columns first and in order, then exactly the other names minus the target, none of them object; every cell is its encoded, logged, filled or copied value |
| Preprocessing.YearNotEncoded | data_cleaning.py:91 | with the date split done, `X`'s year column equals the split's year column: the year table never acts |
| Preprocessing.KeptCells | data_cleaning.py:74-105 | a column no step names reaches `X` encoded with its own table if it is an object column, and copied otherwise |
| Preprocessing.Preprocess | data_cleaning.py:45-108 | fails when `adr_pp`, a useless column or the target is absent; `X` and `y` have the input's labels and `y` is the input's target column; `X` holds every remaining column, ignoring the target, with no object column after a non-object one; `X` has an `is_canceled` column exactly when it is an object column of the input (the numeric part never carries it); a column no step names is encoded with its own table if it is an object column of the input, and copied otherwise |
| Pipeline.MealNeverCodeFour | data_cleaning.py:28 | after `clean_df` and `preprocessing_df`, a meal in `X` is 4 only if it was the number 4 before: code 4 ("Undefined") never comes from a label |

## Left out

- The correlation heatmap (`data_cleaning.py:54-58`) is plotting only. It is not modelled. In pandas 2, `corr()` raises on the object columns still present at that point, which the model also does not reflect.
- `np.log1p`, `Series.mean` and `pd.to_datetime` are parameters of the model. Floating-point results, infinities, and `NaN` from `log1p` of a value below -1 are not modelled.
- Preprocessing.LogCells: a text cell in a logged column is left as it is, whereas numpy raises on it.
- Preprocessing.MeanCell: states when the mean is missing, not its value, because `mean` is a parameter.
- Mode.ModeOf: the order between text and numbers in one column (numbers before text) is a choice of the model, since pandas refuses to sort such a column.
- Encoding.Replace: after `replace`, pandas may re-infer an integer dtype for a column that now holds only codes. The model keeps the column's dtype as it was.
- Preprocessing.Prepare: states only when a missing `adr_pp` or useless column makes it fail, not the date-parsing failures, which `ExtractDate` states.
- Preprocessing.Preprocess: states the failure cases as sufficient, not necessary; the exact conditions are those of `Prepare` and `Assemble`. It states that `X` has no object column after a non-object one, but not the order of the object columns relative to the input's columns; `Assemble` states that order relative to the prepared frame.
- Preprocessing.Assemble: states the names and dtypes of the numeric part of `X`, not their order.
- Cleaning.CleanDf: states only the first step's failure as a sufficient condition; each step states its own failure exactly.
- `clean_df` mutates the caller's frame in place. `df["country"].fillna(..., inplace=True)` writes through, as it does without copy-on-write. The model returns new frames and does not model aliasing.
- All numbers are reals. Integer and float columns differ only in the dtype tag, which is tracked where the code depends on it: date parts, log columns, and object columns.
- `get_fig.py`, `STL_analysis.py` and `RFC.py` (plotting, a time-series decomposition, a classifier wrapper) are not part of this model.

=== FILE: cleaning.dfy ===
/** `clean_df`: drops the two sparse columns, imputes the country, drops rows without
    a children count, merges the two self-catering meal labels, deletes three known
    bad records and removes bookings with nobody in them. */
module Cleaning {
  import opened Results
  import opened Seqs
  import opened Frames
  import opened Mode

  const Undefined: Cell := Str("Undefined")
  const SelfCatering: Cell := Str("SC")

  /** The record with an outlying children count. */
  const ChildrenOutliers: set<int> := {328}
  /** The two records with implausible babies counts. */
  const BabiesOutliers: set<int> := {46619, 78656}

  /** The mask `(df.children == 0) & (df.adults == 0) & (df.babies == 0)`. */
  predicate Unoccupied(r: Row) {
    At(r, "children") == Num(0.0) && At(r, "adults") == Num(0.0) && At(r, "babies") == Num(0.0)
  }

  function Occupied(r: Row): bool {
    !Unoccupied(r)
  }

  function MealIs(v: Cell): Row -> bool {
    (r: Row) => At(r, "meal") == v
  }

  /** Step 1: `df.drop('company')` then `df.drop('agent')`. */
  function DropSparseColumns(f: Frame): (r: Result<Frame, Error>)
    ensures r.Err? <==> !HasColumn(f, "company") || !HasColumn(f, "agent")
    ensures r.Ok? ==> NameSet(r.value.columns) == NameSet(f.columns) - {"company", "agent"}
    ensures r.Ok? ==> |r.value.rows| == |f.rows| && Labels(r.value.rows) == Labels(f.rows)
    ensures r.Ok? ==> forall n :: n != "company" && n != "agent" ==> SameCells(f, r.value, n)
    ensures r.Ok? && Wf(f) ==> Wf(r.value)
  {
    match DropColumns(f, {"company"})
    case Err(e) => Err(e)
    case Ok(g) =>
      assert HasColumn(g, "agent") <==> HasColumn(f, "agent");
      match DropColumns(g, {"agent"})
      case Err(e) => Err(e)
      case Ok(h) =>
        DropSparseFacts(f, g, h);
        Ok(h)
  }

  lemma DropSparseFacts(f: Frame, g: Frame, h: Frame)
    requires DropColumns(f, {"company"}) == Ok(g) && DropColumns(g, {"agent"}) == Ok(h)
    ensures NameSet(h.columns) == NameSet(f.columns) - {"company", "agent"}
    ensures |h.rows| == |f.rows| && Labels(h.rows) == Labels(f.rows)
    ensures forall n :: n != "company" && n != "agent" ==> SameCells(f, h, n)
    ensures Wf(f) ==> Wf(h)
  {
    SameCellsTrans(f, g, h);
  }

  lemma SameCellsTrans(f: Frame, g: Frame, h: Frame)
    requires forall n :: n != "company" ==> SameCells(f, g, n)
    requires forall n :: n != "agent" ==> SameCells(g, h, n)
    ensures forall n :: n != "company" && n != "agent" ==> SameCells(f, h, n)
  {
    forall n | n != "company" && n != "agent" ensures SameCells(f, h, n) {
      assert SameCells(f, g, n) && SameCells(g, h, n);
    }
  }

  /** Step 2: `df["country"].fillna(df["country"].mode()[0])`. */
  function ImputeCountry(f: Frame): (r: Result<Frame, Error>)
    ensures r.Err? <==> !HasColumn(f, "country") || |Values(f, "country")| == 0
    ensures r.Ok? ==> r.value.columns == f.columns && |r.value.rows| == |f.rows|
    ensures r.Ok? ==> Labels(r.value.rows) == Labels(f.rows)
    ensures r.Ok? && Wf(f) ==> Wf(r.value) && forall x :: x in r.value.rows ==> At(x, "country") != NaN
    ensures r.Ok? ==> forall i :: 0 <= i < |f.rows| && At(f.rows[i], "country") != NaN ==> r.value.rows[i] == f.rows[i]
    ensures r.Ok? && Wf(f) ==> forall i :: 0 <= i < |f.rows| && At(f.rows[i], "country") == NaN
                                   ==> IsMode(At(r.value.rows[i], "country"), Values(f, "country"))
    ensures r.Ok? ==> forall n :: n != "country" ==> SameCells(f, r.value, n)
  {
    match ColumnMode(f, "country")
    case Err(e) => Err(e)
    case Ok(m) =>
      var g := FillNa(f, "country", m);
      FilledWithMode(f, m, g);
      Ok(g)
  }

  lemma FilledWithMode(f: Frame, m: Cell, g: Frame)
    requires g == FillNa(f, "country", m) && IsMode(m, Values(f, "country"))
    ensures Wf(f) ==> forall i :: 0 <= i < |f.rows| && At(f.rows[i], "country") == NaN
                          ==> IsMode(At(g.rows[i], "country"), Values(f, "country"))
  {
    if Wf(f) {
      forall i | 0 <= i < |f.rows| && At(f.rows[i], "country") == NaN
        ensures At(g.rows[i], "country") == m
      {
        assert f.rows[i] in f.rows;
      }
    }
  }

  /** Step 4: `df["meal"].replace("Undefined", "SC")`. */
  function NormalizeMeal(f: Frame): (r: Result<Frame, Error>)
    ensures r.Err? <==> !HasColumn(f, "meal")
    ensures r.Ok? ==> |r.value.rows| == |f.rows|
    ensures r.Ok? ==> forall x :: x in r.value.rows ==> At(x, "meal") != Undefined
    ensures r.Ok? ==> forall i :: 0 <= i < |f.rows| && At(f.rows[i], "meal") == Undefined
                         ==> At(r.value.rows[i], "meal") == SelfCatering
    ensures r.Ok? ==> forall i :: 0 <= i < |f.rows| && At(f.rows[i], "meal") != Undefined
                         ==> r.value.rows[i] == f.rows[i]
    ensures r.Ok? ==> r.value.columns == f.columns && Labels(r.value.rows) == Labels(f.rows)
    ensures r.Ok? ==> forall n :: n != "meal" ==> SameCells(f, r.value, n)
    ensures r.Ok? && Wf(f) ==> Wf(r.value)
  {
    ReplaceValue(f, "meal", Undefined, SelfCatering)
  }

  lemma {:induction false} MealCountRows(rows: seq<Row>)
    ensures CountWhere(Map(ReplaceCell("meal", Undefined, SelfCatering), rows), MealIs(SelfCatering))
         == CountWhere(rows, MealIs(SelfCatering)) + CountWhere(rows, MealIs(Undefined))
  {
    if |rows| > 0 {
      MealCountRows(rows[1..]);
      var m := Map(ReplaceCell("meal", Undefined, SelfCatering), rows);
      assert m[1..] == Map(ReplaceCell("meal", Undefined, SelfCatering), rows[1..]);
    }
  }

  /** After the rewrite, the "SC" count is the old "SC" count plus the old "Undefined" count. */
  lemma MealCount(f: Frame, g: Frame)
    requires NormalizeMeal(f) == Ok(g)
    ensures CountWhere(g.rows, MealIs(SelfCatering))
         == CountWhere(f.rows, MealIs(SelfCatering)) + CountWhere(f.rows, MealIs(Undefined))
  {
    MealCountRows(f.rows);
  }

  /** Rewriting "Undefined" to "SC" a second time changes nothing. */
  lemma MealIdempotent(f: Frame, g: Frame)
    requires NormalizeMeal(f) == Ok(g)
    ensures NormalizeMeal(g) == Ok(g)
  {
    var again := Map(ReplaceCell("meal", Undefined, SelfCatering), g.rows);
    forall i | 0 <= i < |g.rows| ensures again[i] == g.rows[i] {
      assert g.rows[i] in g.rows;
    }
    assert again == g.rows;
  }

  /** Step 5: `df.drop(328)` then `df.drop([46619, 78656])`, each after a `sort_values`
      whose result is discarded: the sorts reorder nothing, but each raises when its
      column is absent. */
  function DropOutliers(f: Frame): (r: Result<Frame, Error>)
    ensures r.Err? <==> !HasColumn(f, "children") || !HasColumn(f, "babies")
                        || !({328, 46619, 78656} <= LabelSet(f.rows))
    ensures r.Err? && HasColumn(f, "children") && 328 in LabelSet(f.rows) && !HasColumn(f, "babies")
            ==> r.error == ColumnsNotFound({"babies"})
    ensures r.Ok? ==> r.value.columns == f.columns
    ensures r.Ok? ==> forall x :: x in r.value.rows <==> x in f.rows && x.index !in {328, 46619, 78656}
    ensures r.Ok? ==> IsSubseq(r.value.rows, f.rows)
    ensures r.Ok? ==> r.value.rows == Filter(f.rows, Unlabelled({328, 46619, 78656}))
    ensures r.Ok? && Wf(f) ==> Wf(r.value)
  {
    var f0 :- SortValuesDiscarded(f, "children");
    var g :- DropLabels(f0, ChildrenOutliers);
    var g0 :- SortValuesDiscarded(g, "babies");
    var h :- DropLabels(g0, BabiesOutliers);
    DropOutliersFacts(f, g, h);
    Ok(h)
  }

  lemma DropOutliersFacts(f: Frame, g: Frame, h: Frame)
    requires DropLabels(f, ChildrenOutliers) == Ok(g) && DropLabels(g, BabiesOutliers) == Ok(h)
    ensures h.columns == f.columns
    ensures forall x :: x in h.rows <==> x in f.rows && x.index !in {328, 46619, 78656}
    ensures IsSubseq(h.rows, f.rows)
    ensures h.rows == Filter(f.rows, Unlabelled({328, 46619, 78656}))
    ensures Wf(f) ==> Wf(h)
  {
    SubseqTrans(h.rows, g.rows, f.rows);
    SubseqFilter(g.rows, f.rows, Unlabelled(ChildrenOutliers));
    SubseqFilter(h.rows, g.rows, Unlabelled(BabiesOutliers));
    FilterFuse(f.rows, Unlabelled(ChildrenOutliers), Unlabelled(BabiesOutliers), Unlabelled({328, 46619, 78656}));
  }

  /** Step 6: `df.loc[~filter]` for the zero-occupant mask; reading `df.children`,
      `df.adults` or `df.babies` raises when that column is absent. */
  function DropZeroOccupants(f: Frame): (r: Result<Frame, Error>)
    ensures r.Err? <==> !HasColumn(f, "children") || !HasColumn(f, "adults") || !HasColumn(f, "babies")
    ensures r.Ok? ==> r.value.columns == f.columns
    ensures r.Ok? ==> forall x :: x in r.value.rows ==> x in f.rows && !Unoccupied(x)
    ensures r.Ok? ==> forall x :: x in f.rows && !Unoccupied(x) ==> x in r.value.rows
    ensures r.Ok? ==> IsSubseq(r.value.rows, f.rows) && |r.value.rows| <= |f.rows|
    ensures r.Ok? ==> |r.value.rows| == |f.rows| - CountWhere(f.rows, Negate(Occupied))
    ensures r.Ok? && Wf(f) ==> Wf(r.value)
  {
    var missing := set n | n in ["children", "adults", "babies"] && !HasColumn(f, n);
    if missing != {} then
      assert !HasColumn(f, "children") || !HasColumn(f, "adults") || !HasColumn(f, "babies");
      Err(ColumnsNotFound(missing))
    else
      assert "children" !in missing && "adults" !in missing && "babies" !in missing;
      Ok(FilterRows(f, Occupied))
  }

  /** The rows `clean_df` keeps: a children count, not one of the three outlying
      records, and somebody in the booking. */
  predicate Kept(x: Row) {
    At(x, "children") != NaN && x.index !in {328, 46619, 78656} && Occupied(x)
  }

  /** `y` is what `clean_df` makes of the row `x` of its input `f`: the same label, a
      present country kept and a missing one filled with the mode, an "Undefined" meal
      read as "SC", and every other cell but the two dropped columns unchanged. */
  ghost predicate CleanedRow(f: Frame, x: Row, y: Row) {
    && y.index == x.index
    && (forall n :: n != "company" && n != "agent" && n != "country" && n != "meal" ==> At(y, n) == At(x, n))
    && (At(x, "country") != NaN ==> At(y, "country") == At(x, "country"))
    && (At(x, "country") == NaN && Wf(f) ==> IsMode(At(y, "country"), Values(f, "country")))
    && At(y, "meal") == (if At(x, "meal") == Undefined then SelfCatering else At(x, "meal"))
  }

  /** `clean_df`, its six steps in order; the first step that raises ends it. */
  function CleanDf(f: Frame): (r: Result<Frame, Error>)
    ensures !HasColumn(f, "company") || !HasColumn(f, "agent") ==> r.Err?
    ensures r.Ok? ==> NameSet(r.value.columns) == NameSet(f.columns) - {"company", "agent"}
    ensures r.Ok? ==> forall x :: x in r.value.rows ==>
                        && At(x, "children") != NaN
                        && At(x, "meal") != Undefined
                        && x.index !in {328, 46619, 78656}
                        && !Unoccupied(x)
    ensures r.Ok? && Wf(f) ==> Wf(r.value) && forall x :: x in r.value.rows ==> At(x, "country") != NaN
    ensures r.Ok? ==> IsSubseq(Labels(r.value.rows), Labels(f.rows))
    ensures r.Ok? ==> exists x :: x in f.rows && x.index == 328 && At(x, "children") != NaN
    ensures r.Ok? ==> forall x :: x in f.rows && Kept(x) ==> exists y :: y in r.value.rows && CleanedRow(f, x, y)
    ensures r.Ok? ==> forall y :: y in r.value.rows ==> exists x :: x in f.rows && Kept(x) && CleanedRow(f, x, y)
    ensures r.Ok? ==> Labels(r.value.rows) == Labels(Filter(f.rows, Kept))
  {
    var f1 :- DropSparseColumns(f);
    var f2 :- ImputeCountry(f1);
    var f3 :- DropNa(f2, "children");
    var f4 :- NormalizeMeal(f3);
    var f5 :- DropOutliers(f4);
    var f6 :- DropZeroOccupants(f5);
    assert Steps(f, f1, f2, f3, f4, f5, f6);
    CleanSteps(f, f1, f2, f3, f4, f5, f6);
    CleanRows(f, f1, f2, f3, f4, f5, f6);
    StepsLabels(f, f1, f2, f3, f4, f5, f6);
    Ok(f6)
  }

  /** The six steps of `CleanDf`, each succeeding on the previous one's output. */
  ghost predicate Steps(f: Frame, f1: Frame, f2: Frame, f3: Frame, f4: Frame, f5: Frame, f6: Frame) {
    && DropSparseColumns(f) == Ok(f1) && ImputeCountry(f1) == Ok(f2) && DropNa(f2, "children") == Ok(f3)
    && NormalizeMeal(f3) == Ok(f4) && DropOutliers(f4) == Ok(f5) && DropZeroOccupants(f5) == Ok(f6)
  }

  lemma CleanSteps(f: Frame, f1: Frame, f2: Frame, f3: Frame, f4: Frame, f5: Frame, f6: Frame)
    requires Steps(f, f1, f2, f3, f4, f5, f6)
    ensures NameSet(f6.columns) == NameSet(f.columns) - {"company", "agent"}
    ensures forall x :: x in f6.rows ==>
              && At(x, "children") != NaN
              && At(x, "meal") != Undefined
              && x.index !in {328, 46619, 78656}
              && !Unoccupied(x)
    ensures Wf(f) ==> Wf(f6) && forall x :: x in f6.rows ==> At(x, "country") != NaN
    ensures IsSubseq(Labels(f6.rows), Labels(f.rows))
    ensures exists x :: x in f.rows && x.index == 328 && At(x, "children") != NaN
  {
    CleanKeepsValues(f1, f2, f3, f4, f5, f6);
    CleanKeepsOrder(f, f1, f2, f3, f4, f5, f6);
    OutlierNeedsChildren(f, f1, f2, f3, f4);
  }

  lemma CleanKeepsValues(f1: Frame, f2: Frame, f3: Frame, f4: Frame, f5: Frame, f6: Frame)
    requires ImputeCountry(f1) == Ok(f2) && DropNa(f2, "children") == Ok(f3)
    requires NormalizeMeal(f3) == Ok(f4) && DropOutliers(f4) == Ok(f5) && DropZeroOccupants(f5) == Ok(f6)
    ensures forall x :: x in f6.rows ==> At(x, "children") != NaN && (Wf(f1) ==> At(x, "country") != NaN)
  {
    MealKeeps(f3, f4, "children");
    MealKeeps(f3, f4, "country");
  }

  /** Rows surviving the later steps keep the value `NormalizeMeal` saw in a column other than meal. */
  lemma MealKeeps(f3: Frame, f4: Frame, n: string)
    requires NormalizeMeal(f3) == Ok(f4) && n != "meal"
    ensures forall x :: x in f4.rows ==> exists y :: y in f3.rows && At(y, n) == At(x, n)
  {
    forall x | x in f4.rows ensures exists y :: y in f3.rows && At(y, n) == At(x, n) {
      var i :| 0 <= i < |f4.rows| && f4.rows[i] == x;
      assert SameCells(f3, f4, n);
      assert f3.rows[i] in f3.rows;
    }
  }

  lemma CleanKeepsOrder(f: Frame, f1: Frame, f2: Frame, f3: Frame, f4: Frame, f5: Frame, f6: Frame)
    requires Steps(f, f1, f2, f3, f4, f5, f6)
    ensures IsSubseq(Labels(f6.rows), Labels(f.rows))
  {
    SubseqTrans(f6.rows, f5.rows, f4.rows);
    SubseqMap(Label, f6.rows, f4.rows);
    SubseqMap(Label, f3.rows, f2.rows);
    SubseqTrans(Labels(f6.rows), Labels(f4.rows), Labels(f2.rows));
  }

  /** `df.drop(328)` runs after the `dropna`, so a successful run needs a row 328 that
      already had a children count in the input. */
  lemma OutlierNeedsChildren(f: Frame, f1: Frame, f2: Frame, f3: Frame, f4: Frame)
    requires forall n :: n != "company" && n != "agent" ==> SameCells(f, f1, n)
    requires forall n :: n != "country" ==> SameCells(f1, f2, n)
    requires forall x :: x in f3.rows ==> x in f2.rows && At(x, "children") != NaN
    requires Labels(f4.rows) == Labels(f3.rows) && 328 in LabelSet(f4.rows)
    ensures exists x :: x in f.rows && x.index == 328 && At(x, "children") != NaN
  {
    LabelSetOfLabels(f3.rows);
    LabelSetOfLabels(f4.rows);
    var y :| y in f3.rows && y.index == 328;
    var i :| 0 <= i < |f2.rows| && f2.rows[i] == y;
    assert "children" != "country" && "children" != "company" && "children" != "agent";
    SameCellsAt(f1, f2, "children", i);
    SameCellsAt(f, f1, "children", i);
    assert f.rows[i] in f.rows;
  }

  /** What the last two steps keep: none of the three labels, and somebody in the booking. */
  predicate LateKept(x: Row) {
    x.index !in {328, 46619, 78656} && Occupied(x)
  }

  lemma StepsLabels(f: Frame, f1: Frame, f2: Frame, f3: Frame, f4: Frame, f5: Frame, f6: Frame)
    requires Steps(f, f1, f2, f3, f4, f5, f6)
    ensures Labels(f6.rows) == Labels(Filter(f.rows, Kept))
  {
    EarlyAligned(f, f1, f2);
    ChildrenFiltered(f2, f3);
    MealAligned(f3, f4);
    LateFiltered(f4, f5, f6);
    CleanLabels(f, f2, f3, f4, f6);
  }

  /** Every step before the filters keeps each row's label, children, adults and babies in
      place, so the labels `clean_df` returns are those of the kept input rows, each as
      often and in the order the input has it. */
  lemma CleanLabels(f: Frame, f2: Frame, f3: Frame, f4: Frame, f6: Frame)
    requires Labels(Filter(f2.rows, Kept)) == Labels(Filter(f.rows, Kept))
    requires f3.rows == Filter(f2.rows, PresentIn("children"))
    requires Labels(Filter(f4.rows, LateKept)) == Labels(Filter(f3.rows, LateKept))
    requires f6.rows == Filter(f4.rows, LateKept)
    ensures Labels(f6.rows) == Labels(Filter(f.rows, Kept))
  {
    FilterFuse(f2.rows, PresentIn("children"), LateKept, Kept);
  }

  /** `dropna(subset=["children"])` is the filter on a present children count. */
  lemma ChildrenFiltered(f2: Frame, f3: Frame)
    requires forall x :: x in f3.rows ==> x in f2.rows && At(x, "children") != NaN
    requires IsSubseq(f3.rows, f2.rows) && |f3.rows| == |f2.rows| - CountWhere(f2.rows, MissingIn("children"))
    ensures f3.rows == Filter(f2.rows, PresentIn("children"))
  {
    SubseqFilter(f3.rows, f2.rows, PresentIn("children"));
  }

  /** The outlier drop and the occupant mask together are the filter by `LateKept`. */
  lemma LateFiltered(f4: Frame, f5: Frame, f6: Frame)
    requires f5.rows == Filter(f4.rows, Unlabelled({328, 46619, 78656}))
    requires forall x :: x in f6.rows ==> x in f5.rows && !Unoccupied(x)
    requires IsSubseq(f6.rows, f5.rows) && |f6.rows| == |f5.rows| - CountWhere(f5.rows, Negate(Occupied))
    ensures f6.rows == Filter(f4.rows, LateKept)
  {
    SubseqFilter(f6.rows, f5.rows, Occupied);
    FilterFuse(f4.rows, Unlabelled({328, 46619, 78656}), Occupied, LateKept);
  }

  /** Dropping company and agent and filling the country keep every row's label and the
      cells `Kept` reads. */
  lemma EarlyAligned(f: Frame, f1: Frame, f2: Frame)
    requires Labels(f1.rows) == Labels(f.rows) && forall n :: n != "company" && n != "agent" ==> SameCells(f, f1, n)
    requires |f2.rows| == |f1.rows| && Labels(f2.rows) == Labels(f1.rows) && forall n :: n != "country" ==> SameCells(f1, f2, n)
    ensures Labels(Filter(f2.rows, Kept)) == Labels(Filter(f.rows, Kept))
  {
    assert forall n :: n !in {"company", "agent"} ==> SameCells(f, f1, n);
    assert forall n :: n !in {"country"} ==> SameCells(f1, f2, n);
    assert |Labels(f1.rows)| == |Labels(f.rows)|;
    forall i | 0 <= i < |f2.rows| ensures f2.rows[i].index == f.rows[i].index && Kept(f2.rows[i]) == Kept(f.rows[i]) {
      SameCellsRow(f, f1, {"company", "agent"}, i);
      SameCellsRow(f1, f2, {"country"}, i);
    }
    FilterAligned(f2.rows, f.rows, Kept, Kept);
  }

  /** Reading "Undefined" as "SC" keeps every row's label and the cells `LateKept` reads. */
  lemma MealAligned(f3: Frame, f4: Frame)
    requires |f4.rows| == |f3.rows| && Labels(f4.rows) == Labels(f3.rows)
    requires forall n :: n != "meal" ==> SameCells(f3, f4, n)
    ensures Labels(Filter(f4.rows, LateKept)) == Labels(Filter(f3.rows, LateKept))
  {
    assert forall n :: n !in {"meal"} ==> SameCells(f3, f4, n);
    forall i | 0 <= i < |f4.rows| ensures f4.rows[i].index == f3.rows[i].index && LateKept(f4.rows[i]) == LateKept(f3.rows[i]) {
      SameCellsRow(f3, f4, {"meal"}, i);
    }
    FilterAligned(f4.rows, f3.rows, LateKept, LateKept);
  }

  /** What `DropSparseColumns` promises about each row. */
  ghost predicate SparseStep(f: Frame, f1: Frame) {
    Labels(f1.rows) == Labels(f.rows) && forall n :: n !in {"company", "agent"} ==> SameCells(f, f1, n)
  }

  /** What `ImputeCountry` promises about each row, the mode taken over the input `f`. */
  ghost predicate CountryStep(f: Frame, f1: Frame, f2: Frame) {
    && Labels(f2.rows) == Labels(f1.rows) && (forall n :: n !in {"country"} ==> SameCells(f1, f2, n))
    && (forall k :: 0 <= k < |f1.rows| && At(f1.rows[k], "country") != NaN ==> f2.rows[k] == f1.rows[k])
    && (Wf(f) ==> forall k :: 0 <= k < |f1.rows| && At(f1.rows[k], "country") == NaN
                              ==> IsMode(At(f2.rows[k], "country"), Values(f, "country")))
  }

  /** What `NormalizeMeal` promises about each row. */
  ghost predicate MealStep(f3: Frame, f4: Frame) {
    && Labels(f4.rows) == Labels(f3.rows) && (forall n :: n !in {"meal"} ==> SameCells(f3, f4, n))
    && (forall k :: 0 <= k < |f3.rows| && At(f3.rows[k], "meal") == Undefined
                    ==> At(f4.rows[k], "meal") == SelfCatering)
    && (forall k :: 0 <= k < |f3.rows| && At(f3.rows[k], "meal") != Undefined ==> f4.rows[k] == f3.rows[k])
  }

  /** What the three row-deleting steps promise: they keep exactly the rows they should. */
  ghost predicate DeleteSteps(f2: Frame, f3: Frame, f4: Frame, f5: Frame, f6: Frame) {
    && (forall x :: x in f3.rows <==> x in f2.rows && At(x, "children") != NaN)
    && (forall x :: x in f5.rows <==> x in f4.rows && x.index !in {328, 46619, 78656})
    && (forall x :: x in f6.rows <==> x in f5.rows && !Unoccupied(x))
  }

  lemma CountryStepHolds(f: Frame, f1: Frame, f2: Frame)
    requires SameCells(f, f1, "country") && (Wf(f) ==> Wf(f1))
    requires Labels(f2.rows) == Labels(f1.rows) && forall n :: n != "country" ==> SameCells(f1, f2, n)
    requires forall k :: 0 <= k < |f1.rows| && At(f1.rows[k], "country") != NaN ==> f2.rows[k] == f1.rows[k]
    requires Wf(f1) ==> forall k :: 0 <= k < |f1.rows| && At(f1.rows[k], "country") == NaN
                                    ==> IsMode(At(f2.rows[k], "country"), Values(f1, "country"))
    ensures CountryStep(f, f1, f2)
  {
    if Wf(f) {
      ValuesSameColumn(f1, f, "country");
      forall k | 0 <= k < |f1.rows| && At(f1.rows[k], "country") == NaN
        ensures IsMode(At(f2.rows[k], "country"), Values(f, "country"))
      {
        ModeSameValues(At(f2.rows[k], "country"), Values(f1, "country"), Values(f, "country"));
      }
    }
  }

  /** The rows `clean_df` returns are exactly its kept input rows, cleaned. The
      requirements are what the six steps promise, written as their postconditions
      state them; the body packs them into the step predicates the row lemmas take. */
  lemma CleanRows(f: Frame, f1: Frame, f2: Frame, f3: Frame, f4: Frame, f5: Frame, f6: Frame)
    requires |f1.rows| == |f.rows| && Labels(f1.rows) == Labels(f.rows) && (Wf(f) ==> Wf(f1))
    requires forall n :: n != "company" && n != "agent" ==> SameCells(f, f1, n)
    requires Labels(f2.rows) == Labels(f1.rows) && forall n :: n != "country" ==> SameCells(f1, f2, n)
    requires forall k :: 0 <= k < |f1.rows| && At(f1.rows[k], "country") != NaN ==> f2.rows[k] == f1.rows[k]
    requires Wf(f1) ==> forall k :: 0 <= k < |f1.rows| && At(f1.rows[k], "country") == NaN
                                    ==> IsMode(At(f2.rows[k], "country"), Values(f1, "country"))
    requires forall x :: x in f3.rows <==> x in f2.rows && At(x, "children") != NaN
    requires |f4.rows| == |f3.rows| && Labels(f4.rows) == Labels(f3.rows)
    requires forall n :: n != "meal" ==> SameCells(f3, f4, n)
    requires forall k :: 0 <= k < |f3.rows| && At(f3.rows[k], "meal") != Undefined ==> f4.rows[k] == f3.rows[k]
    requires forall k :: 0 <= k < |f3.rows| && At(f3.rows[k], "meal") == Undefined
                         ==> At(f4.rows[k], "meal") == SelfCatering
    requires forall x :: x in f5.rows <==> x in f4.rows && x.index !in {328, 46619, 78656}
    requires forall x :: x in f6.rows ==> x in f5.rows && !Unoccupied(x)
    requires forall x :: x in f5.rows && !Unoccupied(x) ==> x in f6.rows
    ensures forall x :: x in f.rows && Kept(x) ==> exists y :: y in f6.rows && CleanedRow(f, x, y)
    ensures forall y :: y in f6.rows ==> exists x :: x in f.rows && Kept(x) && CleanedRow(f, x, y)
  {
    assert SparseStep(f, f1);
    assert SameCells(f, f1, "country");
    CountryStepHolds(f, f1, f2);
    assert MealStep(f3, f4) && DeleteSteps(f2, f3, f4, f5, f6);
    forall x | x in f.rows && Kept(x) ensures exists y :: y in f6.rows && CleanedRow(f, x, y) {
      var i :| 0 <= i < |f.rows| && f.rows[i] == x;
      CleanForward(f, f1, f2, f3, f4, f5, f6, i);
    }
    forall y | y in f6.rows ensures exists x :: x in f.rows && Kept(x) && CleanedRow(f, x, y) {
      CleanBackward(f, f1, f2, f3, f4, f5, f6, y);
    }
  }

  /** Every kept input row comes out of the six steps, cleaned. */
  lemma CleanForward(f: Frame, f1: Frame, f2: Frame, f3: Frame, f4: Frame, f5: Frame, f6: Frame, i: int)
    requires SparseStep(f, f1) && CountryStep(f, f1, f2) && MealStep(f3, f4) && DeleteSteps(f2, f3, f4, f5, f6)
    requires 0 <= i < |f.rows| && Kept(f.rows[i])
    ensures exists y :: y in f6.rows && CleanedRow(f, f.rows[i], y)
  {
    var x := f.rows[i];
    SameCellsRow(f, f1, {"company", "agent"}, i);
    var x1 := f1.rows[i];
    SameCellsRow(f1, f2, {"country"}, i);
    var x2 := f2.rows[i];
    assert x2 in f2.rows && At(x2, "children") == At(x, "children");
    var j :| 0 <= j < |f3.rows| && f3.rows[j] == x2;
    SameCellsRow(f3, f4, {"meal"}, j);
    var y := f4.rows[j];
    TracedRow(f, x, x1, x2, y);
    assert y in f4.rows && y in f5.rows;
  }

  /** Every output row is a kept input row, cleaned. */
  lemma CleanBackward(f: Frame, f1: Frame, f2: Frame, f3: Frame, f4: Frame, f5: Frame, f6: Frame, y: Row)
    requires SparseStep(f, f1) && CountryStep(f, f1, f2) && MealStep(f3, f4) && DeleteSteps(f2, f3, f4, f5, f6)
    requires |f1.rows| == |f.rows| && |f4.rows| == |f3.rows|
    requires y in f6.rows
    ensures exists x :: x in f.rows && Kept(x) && CleanedRow(f, x, y)
  {
    assert y in f5.rows && y in f4.rows;
    var j :| 0 <= j < |f4.rows| && f4.rows[j] == y;
    var x2 := f3.rows[j];
    assert x2 in f3.rows;
    var i :| 0 <= i < |f2.rows| && f2.rows[i] == x2;
    assert |f2.rows| == |f1.rows|;
    SameCellsRow(f, f1, {"company", "agent"}, i);
    SameCellsRow(f1, f2, {"country"}, i);
    SameCellsRow(f3, f4, {"meal"}, j);
    var x, x1 := f.rows[i], f1.rows[i];
    TracedRow(f, x, x1, x2, y);
    assert Kept(x) by {
      assert At(x2, "children") != NaN && y.index !in {328, 46619, 78656} && !Unoccupied(y);
    }
    assert x in f.rows;
  }

  /** One row through the first four steps: `x` in the input, `x1` without the sparse
      columns, `x2` with its country filled, `y` with its meal merged. */
  lemma TracedRow(f: Frame, x: Row, x1: Row, x2: Row, y: Row)
    requires Agree(x, x1, {"company", "agent"}) && Agree(x1, x2, {"country"}) && Agree(x2, y, {"meal"})
    requires At(x1, "country") != NaN ==> x2 == x1
    requires At(x1, "country") == NaN && Wf(f) ==> IsMode(At(x2, "country"), Values(f, "country"))
    requires At(x2, "meal") == Undefined ==> At(y, "meal") == SelfCatering
    requires At(x2, "meal") != Undefined ==> y == x2
    ensures CleanedRow(f, x, y)
    ensures At(x2, "children") == At(x, "children")
    ensures Occupied(y) <==> Occupied(x)
  {
    assert At(x1, "country") == At(x, "country") && At(x2, "meal") == At(x, "meal");
    assert At(y, "children") == At(x, "children") && At(y, "adults") == At(x, "adults")
        && At(y, "babies") == At(x, "babies");
  }
}

=== FILE: encoding.dfy ===
/** The categorical encoding of `preprocessing_df`: `cat_df.replace(mappings)` with one
    fixed label-to-code table per column. */
module Encoding {
  import opened Results
  import opened Seqs
  import opened Frames

  /** One entry of a column's dict literal: label -> integer code. */
  datatype Entry = Entry(key: Cell, code: int)

  /** One column's table, in the order the dict literal lists it. */
  type Table = seq<Entry>

  const HotelTable: Table := [Entry(Str("Resort Hotel"), 0), Entry(Str("City Hotel"), 1)]

  const MealTable: Table :=
    [Entry(Str("BB"), 0), Entry(Str("FB"), 1), Entry(Str("HB"), 2), Entry(Str("SC"), 3), Entry(Str("Undefined"), 4)]

  const MarketSegmentTable: Table :=
    [Entry(Str("Direct"), 0), Entry(Str("Corporate"), 1), Entry(Str("Online TA"), 2), Entry(Str("Offline TA/TO"), 3),
     Entry(Str("Complementary"), 4), Entry(Str("Groups"), 5), Entry(Str("Undefined"), 6), Entry(Str("Aviation"), 7)]

  const DistributionChannelTable: Table :=
    [Entry(Str("Direct"), 0), Entry(Str("Corporate"), 1), Entry(Str("TA/TO"), 2), Entry(Str("Undefined"), 3),
     Entry(Str("GDS"), 4)]

  const ReservedRoomTypeTable: Table :=
    [Entry(Str("C"), 0), Entry(Str("A"), 1), Entry(Str("D"), 2), Entry(Str("E"), 3), Entry(Str("G"), 4),
     Entry(Str("F"), 5), Entry(Str("H"), 6), Entry(Str("L"), 7), Entry(Str("B"), 8)]

  const DepositTypeTable: Table :=
    [Entry(Str("No Deposit"), 0), Entry(Str("Refundable"), 1), Entry(Str("Non Refund"), 3)]

  const CustomerTypeTable: Table :=
    [Entry(Str("Transient"), 0), Entry(Str("Contract"), 1), Entry(Str("Transient-Party"), 2), Entry(Str("Group"), 3)]

  /** The one table keyed by numbers. */
  const YearTable: Table :=
    [Entry(Num(2015.0), 0), Entry(Num(2014.0), 1), Entry(Num(2016.0), 2), Entry(Num(2017.0), 3)]

  /** The nested `mappings` dict: a column's table, empty for a column it does not list. */
  function TableOf(n: string): Table {
    if n == "hotel" then HotelTable
    else if n == "meal" then MealTable
    else if n == "market_segment" then MarketSegmentTable
    else if n == "distribution_channel" then DistributionChannelTable
    else if n == "reserved_room_type" then ReservedRoomTypeTable
    else if n == "deposit_type" then DepositTypeTable
    else if n == "customer_type" then CustomerTypeTable
    else if n == "year" then YearTable
    else []
  }

  /** The code of label `c` in `t`, if `t` lists it. */
  function Lookup(t: Table, c: Cell): (r: Option<int>)
    ensures r.Some? ==> exists i :: 0 <= i < |t| && t[i] == Entry(c, r.value)
    ensures r.None? <==> forall i :: 0 <= i < |t| ==> t[i].key != c
  {
    if |t| == 0 then None
    else if t[0].key == c then Some(t[0].code)
    else
      var r := Lookup(t[1..], c);
      assert forall i :: 1 <= i < |t| ==> t[i] == t[1..][i - 1];
      r
  }

  /** No two entries share a code. */
  predicate DistinctCodes(t: Table) {
    forall i, j :: 0 <= i < j < |t| ==> t[i].code != t[j].code
  }

  /** Every code of `t` is read back as one label only. */
  ghost predicate Injective(t: Table) {
    forall a, b :: Lookup(t, a).Some? && Lookup(t, a) == Lookup(t, b) ==> a == b
  }

  /** A code, as the number cell that replaces a label. */
  function Code(k: int): Cell {
    Num(k as real)
  }

  /** One cell after `replace`: a label of the table becomes its code, anything else
      (another value, a missing cell) stays. */
  function EncodeCell(t: Table, c: Cell): Cell {
    match Lookup(t, c)
    case Some(k) => Code(k)
    case None => c
  }

  function EncodeRow(tables: string -> Table, r: Row): Row {
    Row(r.index, map n | n in r.cells :: EncodeCell(tables(n), r.cells[n]))
  }

  /** `df.replace(nested)` for a nested dict given as one table per column (empty for a
      column it does not list): every cell is looked up in its column's table once, all
      replacements taken from the original values. */
  function Replace(f: Frame, tables: string -> Table): (g: Frame)
    ensures g.columns == f.columns && |g.rows| == |f.rows| && Labels(g.rows) == Labels(f.rows)
    ensures forall i :: 0 <= i < |f.rows| ==> g.rows[i].cells.Keys == f.rows[i].cells.Keys
    ensures forall i, n, k :: 0 <= i < |f.rows| && n in f.rows[i].cells && Lookup(tables(n), At(f.rows[i], n)) == Some(k)
                              ==> At(g.rows[i], n) == Code(k)
    ensures forall i, n :: 0 <= i < |f.rows| && n !in f.rows[i].cells ==> n !in g.rows[i].cells
    ensures forall i, n :: 0 <= i < |f.rows| && Lookup(tables(n), At(f.rows[i], n)).None?
                           ==> At(g.rows[i], n) == At(f.rows[i], n)
    ensures Wf(f) ==> Wf(g)
  {
    var g := Frame(f.columns, Map((r: Row) => EncodeRow(tables, r), f.rows));
    ReplaceFacts(f, tables, g);
    g
  }

  lemma ReplaceFacts(f: Frame, tables: string -> Table, g: Frame)
    requires g == Frame(f.columns, Map((r: Row) => EncodeRow(tables, r), f.rows))
    ensures |g.rows| == |f.rows| && Labels(g.rows) == Labels(f.rows)
    ensures forall i :: 0 <= i < |f.rows| ==> g.rows[i].cells.Keys == f.rows[i].cells.Keys
    ensures forall i :: 0 <= i < |f.rows| ==> g.rows[i] == EncodeRow(tables, f.rows[i])
    ensures forall i, n :: 0 <= i < |f.rows| && n in f.rows[i].cells
                           ==> At(g.rows[i], n) == EncodeCell(tables(n), At(f.rows[i], n))
    ensures forall i, n :: 0 <= i < |f.rows| && n !in f.rows[i].cells ==> n !in g.rows[i].cells
    ensures forall i, n :: 0 <= i < |f.rows| && Lookup(tables(n), At(f.rows[i], n)).None?
                           ==> At(g.rows[i], n) == At(f.rows[i], n)
    ensures Wf(f) ==> Wf(g)
  {
    if Wf(f) {
      forall x | x in g.rows ensures x.cells.Keys == NameSet(g.columns) {
        var i :| 0 <= i < |g.rows| && g.rows[i] == x;
        assert f.rows[i] in f.rows;
      }
    }
  }

  /** `cat_df.replace(mappings)`. */
  function EncodeFrame(f: Frame): Frame {
    Replace(f, TableOf)
  }

  /** No key of `t` is one of its codes. */
  predicate KeysAreNotCodes(t: Table) {
    forall i, j :: 0 <= i < |t| && 0 <= j < |t| ==> t[i].key != Code(t[j].code)
  }

  /** The two facts checked on each of the eight literal tables. */
  lemma TableFacts(n: string)
    ensures DistinctCodes(TableOf(n)) && KeysAreNotCodes(TableOf(n))
  {
    var t := TableOf(n);
    if n == "deposit_type" {
      assert t[0].code == 0 && t[1].code == 1 && t[2].code == 3;
      StringKeys(t);
    } else if n == "year" {
      Numbered(t);
      assert forall i :: 0 <= i < |t| ==> t[i].key.Num? && t[i].key.x >= 2014.0;
    } else {
      Numbered(t);
      StringKeys(t);
    }
  }

  /** Codes handed out as 0, 1, 2, ... in listing order are distinct. */
  lemma Numbered(t: Table)
    requires forall i :: 0 <= i < |t| ==> t[i].code == i
    ensures DistinctCodes(t)
  {
  }

  /** String keys are never number codes. */
  lemma StringKeys(t: Table)
    requires forall i :: 0 <= i < |t| ==> t[i].key.Str?
    ensures KeysAreNotCodes(t)
  {
  }

  /** Distinct codes make the lookup injective: a code is read back as one label. */
  lemma DistinctCodesInjective(t: Table)
    requires DistinctCodes(t)
    ensures Injective(t)
  {
    forall a, b | Lookup(t, a).Some? && Lookup(t, a) == Lookup(t, b) ensures a == b {
      var i :| 0 <= i < |t| && t[i] == Entry(a, Lookup(t, a).value);
      var j :| 0 <= j < |t| && t[j] == Entry(b, Lookup(t, b).value);
      assert i == j;
    }
  }

  /** Each of the eight tables sends distinct labels to distinct codes. */
  lemma TablesInjective(n: string)
    ensures Injective(TableOf(n))
  {
    TableFacts(n);
    DistinctCodesInjective(TableOf(n));
  }

  /** `deposit_type` hands out exactly the codes 0, 1 and 3. */
  lemma DepositCodes()
    ensures forall c :: Lookup(TableOf("deposit_type"), c).Some? ==> Lookup(TableOf("deposit_type"), c).value in {0, 1, 3}
    ensures Lookup(TableOf("deposit_type"), Str("No Deposit")) == Some(0)
    ensures Lookup(TableOf("deposit_type"), Str("Refundable")) == Some(1)
    ensures Lookup(TableOf("deposit_type"), Str("Non Refund")) == Some(3)
  {
    var t := TableOf("deposit_type");
    assert t == DepositTypeTable;
    forall c | Lookup(t, c).Some? ensures Lookup(t, c).value in {0, 1, 3} {
      var i :| 0 <= i < |t| && t[i] == Entry(c, Lookup(t, c).value);
    }
  }

  /** A code is never a key of the table it came from. */
  lemma CodeNotKey(t: Table, c: Cell, k: int)
    requires KeysAreNotCodes(t) && Lookup(t, c) == Some(k)
    ensures Lookup(t, Code(k)).None?
  {
    var j :| 0 <= j < |t| && t[j] == Entry(c, k);
  }

  /** Replacing twice in one row is replacing once, for tables whose codes are not keys. */
  lemma EncodeRowIdempotent(tables: string -> Table, r: Row)
    requires forall n :: KeysAreNotCodes(tables(n))
    ensures EncodeRow(tables, EncodeRow(tables, r)) == EncodeRow(tables, r)
  {
    var once := EncodeRow(tables, r);
    forall n | n in r.cells ensures EncodeCell(tables(n), once.cells[n]) == once.cells[n] {
      match Lookup(tables(n), r.cells[n])
      case Some(k) => CodeNotKey(tables(n), r.cells[n], k);
      case None =>
    }
  }

  /** Replacing a second time finds nothing left to replace. */
  lemma ReplaceIdempotent(f: Frame, tables: string -> Table)
    requires forall n :: KeysAreNotCodes(tables(n))
    ensures Replace(Replace(f, tables), tables) == Replace(f, tables)
  {
    var g := Replace(f, tables);
    var h := Replace(g, tables);
    ReplaceFacts(f, tables, g);
    ReplaceFacts(g, tables, h);
    forall i | 0 <= i < |g.rows| ensures h.rows[i] == g.rows[i] {
      EncodeRowIdempotent(tables, f.rows[i]);
    }
  }

  /** Encoding twice is encoding once. */
  lemma EncodeIdempotent(f: Frame)
    ensures EncodeFrame(EncodeFrame(f)) == EncodeFrame(f)
  {
    forall n ensures KeysAreNotCodes(TableOf(n)) {
      TableFacts(n);
    }
    ReplaceIdempotent(f, TableOf);
  }

  /** Code 4 of `meal` stands for "Undefined": a meal cell encodes to 4 only if it was
      "Undefined" or already the number 4. */
  lemma MealFourIsUndefined(c: Cell)
    ensures EncodeCell(TableOf("meal"), c) == Code(4) <==> c == Str("Undefined") || c == Code(4)
  {
    var t := TableOf("meal");
    assert t == MealTable;
    if Lookup(t, c).Some? {
      var i :| 0 <= i < |t| && t[i] == Entry(c, Lookup(t, c).value);
    }
    if c == Str("Undefined") {
      assert Lookup(t, c) == Some(4);
    }
  }

  /** On a frame whose meal column holds no "Undefined" (as `clean_df` leaves it),
      code 4 never comes from a label. */
  lemma MealNeverFour(f: Frame)
    requires forall x :: x in f.rows ==> At(x, "meal") != Str("Undefined")
    ensures forall i :: 0 <= i < |f.rows| && At(f.rows[i], "meal") != Code(4)
                        ==> At(EncodeFrame(f).rows[i], "meal") != Code(4)
  {
    var g := EncodeFrame(f);
    ReplaceFacts(f, TableOf, g);
    forall i | 0 <= i < |f.rows| && At(f.rows[i], "meal") != Code(4)
      ensures At(g.rows[i], "meal") != Code(4)
    {
      assert f.rows[i] in f.rows;
      MealFourIsUndefined(At(f.rows[i], "meal"));
    }
  }
}

=== FILE: frames.dfy ===
/** A pandas DataFrame as an immutable value: an ordered list of typed columns and
    an ordered list of rows, each row keeping its index label. */
module Frames {
  import opened Results
  import opened Seqs

  /** One value: a string label, a number (pandas compares ints and floats by value,
      so both are reals here), or a missing value (NaN / None). */
  datatype Cell = Str(s: string) | Num(x: real) | NaN

  /** The pandas dtype of a column; `Object` is dtype 'O', the string columns. */
  datatype DType = Object | Int64 | Float64

  datatype Column = Column(name: string, dtype: DType)

  datatype Row = Row(index: int, cells: map<string, Cell>)

  datatype Frame = Frame(columns: seq<Column>, rows: seq<Row>)

  /** The exceptions the pipeline can raise. */
  datatype Error =
    | ColumnsNotFound(names: set<string>)   // KeyError on a column label
    | LabelsNotFound(labels: set<int>)      // KeyError on a row label
    | EmptyMode(column: string)             // mode()[0] of a column with no values
    | Unparsable(column: string)            // to_datetime cannot parse a value

  /** The cell of `r` in column `name`; a row without that cell reads as missing. */
  function At(r: Row, name: string): Cell {
    if name in r.cells then r.cells[name] else NaN
  }

  function NameSet(cols: seq<Column>): set<string> {
    set c | c in cols :: c.name
  }

  predicate HasColumn(f: Frame, name: string) {
    name in NameSet(f.columns)
  }

  /** Every row carries exactly one cell per column of the frame. */
  ghost predicate Wf(f: Frame) {
    forall r :: r in f.rows ==> r.cells.Keys == NameSet(f.columns)
  }

  function Label(r: Row): int {
    r.index
  }

  /** The frame's index. */
  function Labels(rows: seq<Row>): seq<int> {
    Map(Label, rows)
  }

  /** `df[name]`: the column's cells, top to bottom. */
  function Col(rows: seq<Row>, name: string): (c: seq<Cell>)
    ensures |c| == |rows|
    ensures forall i :: 0 <= i < |rows| ==> c[i] == At(rows[i], name)
  {
    if |rows| == 0 then [] else [At(rows[0], name)] + Col(rows[1..], name)
  }

  /** `g` has the index of `f` and the same column `name`. */
  ghost predicate SameCells(f: Frame, g: Frame, name: string) {
    Labels(g.rows) == Labels(f.rows) && Col(g.rows, name) == Col(f.rows, name)
  }

  /** Reads a cell out of `SameCells`. */
  lemma SameCellsAt(f: Frame, g: Frame, name: string, i: int)
    requires SameCells(f, g, name) && 0 <= i < |f.rows|
    ensures i < |g.rows| && g.rows[i].index == f.rows[i].index && At(g.rows[i], name) == At(f.rows[i], name)
  {
    assert Labels(g.rows)[i] == Labels(f.rows)[i];
    assert Col(g.rows, name)[i] == Col(f.rows, name)[i];
  }

  /** `y` carries the label of `x` and every cell of `x` outside the columns `except`. */
  ghost predicate Agree(x: Row, y: Row, except: set<string>) {
    y.index == x.index && forall n :: n !in except ==> At(y, n) == At(x, n)
  }

  /** Reads a whole row out of `SameCells` for every column but `except`. */
  lemma SameCellsRow(f: Frame, g: Frame, except: set<string>, i: int)
    requires Labels(g.rows) == Labels(f.rows) && forall n :: n !in except ==> SameCells(f, g, n)
    requires 0 <= i < |f.rows|
    ensures i < |g.rows| && Agree(f.rows[i], g.rows[i], except)
  {
    assert |Labels(g.rows)| == |Labels(f.rows)|;
    assert Labels(g.rows)[i] == Labels(f.rows)[i];
    forall n | n !in except ensures At(g.rows[i], n) == At(f.rows[i], n) {
      SameCellsAt(f, g, n, i);
    }
  }

  // ---------------------------------------------------------------- columns

  function Unnamed(names: set<string>): Column -> bool {
    (c: Column) => c.name !in names
  }

  function WithoutCells(names: set<string>): Row -> Row {
    (r: Row) => Row(r.index, map k | k in r.cells && k !in names :: r.cells[k])
  }

  lemma NameSetFilter(cols: seq<Column>, names: set<string>)
    ensures NameSet(Filter(cols, Unnamed(names))) == NameSet(cols) - names
  {
    var kept := Filter(cols, Unnamed(names));
    forall n | n in NameSet(cols) - names
      ensures n in NameSet(kept)
    {
      var c :| c in cols && c.name == n;
      assert Unnamed(names)(c);
    }
  }

  /** Removing cells keeps every row's label and its other cells. */
  lemma WithoutCellsFacts(f: Frame, names: set<string>, g: Frame)
    requires g == Frame(Filter(f.columns, Unnamed(names)), Map(WithoutCells(names), f.rows))
    ensures |g.rows| == |f.rows| && Labels(g.rows) == Labels(f.rows)
    ensures forall n :: n !in names ==> SameCells(f, g, n)
    ensures Wf(f) ==> Wf(g)
  {
    NameSetFilter(f.columns, names);
    forall n | n !in names ensures SameCells(f, g, n) {
      forall i | 0 <= i < |f.rows| ensures At(g.rows[i], n) == At(f.rows[i], n) {
        assert g.rows[i] == WithoutCells(names)(f.rows[i]);
      }
    }
  }

  /** `df.drop(names, axis=1)`: raises KeyError unless every name is a column;
      otherwise removes those columns and nothing else. */
  function DropColumns(f: Frame, names: set<string>): (r: Result<Frame, Error>)
    ensures r.Err? <==> !(names <= NameSet(f.columns))
    ensures r.Err? ==> r.error == ColumnsNotFound(names - NameSet(f.columns))
    ensures r.Ok? ==> NameSet(r.value.columns) == NameSet(f.columns) - names
    ensures r.Ok? ==> IsSubseq(r.value.columns, f.columns)
    ensures r.Ok? ==> forall c :: c in r.value.columns <==> c in f.columns && c.name !in names
    ensures r.Ok? ==> |r.value.rows| == |f.rows| && Labels(r.value.rows) == Labels(f.rows)
    ensures r.Ok? ==> forall n :: n !in names ==> SameCells(f, r.value, n)
    ensures r.Ok? && Wf(f) ==> Wf(r.value)
  {
    if !(names <= NameSet(f.columns)) then Err(ColumnsNotFound(names - NameSet(f.columns)))
    else
      var g := Frame(Filter(f.columns, Unnamed(names)), Map(WithoutCells(names), f.rows));
      NameSetFilter(f.columns, names);
      FilterIsSubseq(f.columns, Unnamed(names));
      WithoutCellsFacts(f, names, g);
      Ok(g)
  }

  /** `df[[c for c in df.columns if keep(c)]]`: the columns satisfying `keep`, in order. */
  function SelectColumns(f: Frame, keep: Column -> bool): (g: Frame)
    ensures g.columns == Filter(f.columns, keep)
    ensures |g.rows| == |f.rows| && Labels(g.rows) == Labels(f.rows)
    ensures forall n :: (exists c :: c in f.columns && c.name == n && keep(c)) ==> SameCells(f, g, n)
    ensures forall i, n :: 0 <= i < |g.rows| && n in g.rows[i].cells ==> n in NameSet(g.columns)
    ensures Wf(f) ==> Wf(g)
  {
    var names := NameSet(Filter(f.columns, keep));
    Frame(Filter(f.columns, keep), Map((r: Row) => Row(r.index, map k | k in r.cells && k in names :: r.cells[k]), f.rows))
  }

  /** The schema after `df[name] = ...`: an existing column keeps its position and
      takes the new dtype, a new one is appended. */
  function Assign(cols: seq<Column>, name: string, dtype: DType): (r: seq<Column>)
    ensures NameSet(r) == NameSet(cols) + {name}
    ensures forall c :: c in r && c.name == name ==> c.dtype == dtype
    ensures forall c :: c in r && c.name != name ==> c in cols
    ensures forall c :: c in cols && c.name != name ==> c in r
    ensures name in NameSet(cols) ==> |r| == |cols|
    ensures name !in NameSet(cols) ==> r == cols + [Column(name, dtype)]
  {
    if name in NameSet(cols) then
      var r := Map((c: Column) => if c.name == name then Column(name, dtype) else c, cols);
      assert forall c :: c in cols && c.name != name ==> c in r by {
        forall c | c in cols && c.name != name ensures c in r {
          var i :| 0 <= i < |cols| && cols[i] == c;
          assert r[i] == c;
        }
      }
      assert NameSet(r) == NameSet(cols) + {name} by {
        forall n | n in NameSet(cols) ensures n in NameSet(r) {
          var c :| c in cols && c.name == n;
          var i :| 0 <= i < |cols| && cols[i] == c;
          assert r[i].name == n;
        }
      }
      r
    else cols + [Column(name, dtype)]
  }

  /** Row `i` takes `values[i]` in column `name`; everything else stays. */
  function AssignCells(rows: seq<Row>, name: string, values: seq<Cell>): (r: seq<Row>)
    requires |values| == |rows|
    ensures |r| == |rows| && Labels(r) == Labels(rows)
    ensures forall i :: 0 <= i < |rows| ==> r[i].cells.Keys == rows[i].cells.Keys + {name}
    ensures forall i :: 0 <= i < |rows| ==> At(r[i], name) == values[i]
    ensures forall i, n :: 0 <= i < |rows| && n != name ==> At(r[i], n) == At(rows[i], n)
  {
    seq(|rows|, i requires 0 <= i < |rows| => Row(rows[i].index, rows[i].cells[name := values[i]]))
  }

  /** `df[name] = values`, row by row. */
  function SetColumn(f: Frame, name: string, dtype: DType, values: seq<Cell>): (g: Frame)
    requires |values| == |f.rows|
    ensures HasColumn(g, name) && NameSet(g.columns) == NameSet(f.columns) + {name}
    ensures |g.rows| == |f.rows| && Labels(g.rows) == Labels(f.rows)
    ensures forall i :: 0 <= i < |f.rows| ==> At(g.rows[i], name) == values[i]
    ensures forall n :: n != name ==> SameCells(f, g, n)
    ensures forall c :: c in g.columns && c.name == name ==> c.dtype == dtype
    ensures forall c: Column :: c.name != name ==> (c in g.columns <==> c in f.columns)
    ensures Wf(f) ==> Wf(g)
  {
    var g := Frame(Assign(f.columns, name, dtype), AssignCells(f.rows, name, values));
    assert forall i :: 0 <= i < |f.rows| ==> g.rows[i].index == Labels(g.rows)[i] == Labels(f.rows)[i] == f.rows[i].index;
    assert Wf(f) ==> Wf(g) by {
      if Wf(f) {
        forall x | x in g.rows ensures x.cells.Keys == NameSet(g.columns) {
          var i :| 0 <= i < |g.rows| && g.rows[i] == x;
          assert f.rows[i] in f.rows;
        }
      }
    }
    g
  }

  /** Row `i` carries the cells of `a.rows[i]` and `b.rows[i]`, those of `a` first. */
  function JoinCells(a: seq<Row>, b: seq<Row>): (r: seq<Row>)
    requires |a| == |b|
    ensures |r| == |a| && Labels(r) == Labels(a)
    ensures forall i :: 0 <= i < |a| ==> r[i].cells.Keys == a[i].cells.Keys + b[i].cells.Keys
    ensures forall i, n :: 0 <= i < |a| && n in a[i].cells ==> At(r[i], n) == At(a[i], n)
    ensures forall i, n :: 0 <= i < |a| && n !in a[i].cells ==> At(r[i], n) == At(b[i], n)
  {
    seq(|a|, i requires 0 <= i < |a| => Row(a[i].index, b[i].cells + a[i].cells))
  }

  lemma NameSetConcat(a: seq<Column>, b: seq<Column>)
    ensures NameSet(a + b) == NameSet(a) + NameSet(b)
  {
    forall n | n in NameSet(a + b) ensures n in NameSet(a) + NameSet(b) {
      var c :| c in a + b && c.name == n;
      assert c in a || c in b;
    }
  }

  /** `pd.concat([a, b], axis=1)` for two frames sharing one index: the columns of `a`
      followed by those of `b`, each row carrying the cells of both. */
  function Concat(a: Frame, b: Frame): (g: Frame)
    requires Labels(a.rows) == Labels(b.rows)
    ensures g.columns == a.columns + b.columns
    ensures |g.rows| == |a.rows| && Labels(g.rows) == Labels(a.rows)
    ensures forall i, n :: 0 <= i < |a.rows| && n in a.rows[i].cells ==> At(g.rows[i], n) == At(a.rows[i], n)
    ensures forall i, n :: 0 <= i < |a.rows| && n !in a.rows[i].cells ==> At(g.rows[i], n) == At(b.rows[i], n)
    ensures Wf(a) && Wf(b) ==> Wf(g)
  {
    var g := Frame(a.columns + b.columns, JoinCells(a.rows, b.rows));
    NameSetConcat(a.columns, b.columns);
    assert Wf(a) && Wf(b) ==> Wf(g) by {
      if Wf(a) && Wf(b) {
        forall x | x in g.rows ensures x.cells.Keys == NameSet(g.columns) {
          var i :| 0 <= i < |g.rows| && g.rows[i] == x;
          assert a.rows[i] in a.rows && b.rows[i] in b.rows;
        }
      }
    }
    g
  }

  // ------------------------------------------------------------------ cells

  /** `fillna(value=v)` on one column: missing cells of that column become `v`. */
  function FillNa(f: Frame, name: string, v: Cell): (g: Frame)
    ensures g.columns == f.columns && |g.rows| == |f.rows| && Labels(g.rows) == Labels(f.rows)
    ensures forall i :: 0 <= i < |f.rows| && At(f.rows[i], name) != NaN ==> g.rows[i] == f.rows[i]
    ensures forall i :: 0 <= i < |f.rows| && At(f.rows[i], name) == NaN && name in f.rows[i].cells
                        ==> At(g.rows[i], name) == v
    ensures forall n :: n != name ==> SameCells(f, g, n)
    ensures Wf(f) ==> Wf(g)
    ensures Wf(f) && HasColumn(f, name) && v != NaN ==> forall i :: 0 <= i < |g.rows| ==> At(g.rows[i], name) != NaN
  {
    Frame(f.columns, Map(FillCell(name, v), f.rows))
  }

  function FillCell(name: string, v: Cell): Row -> Row {
    (r: Row) => if name in r.cells && r.cells[name] == NaN then Row(r.index, r.cells[name := v]) else r
  }

  function PresentIn(name: string): Row -> bool {
    (r: Row) => At(r, name) != NaN
  }

  function MissingIn(name: string): Row -> bool {
    Negate(PresentIn(name))
  }

  /** `dropna(subset=[name])`: raises KeyError if `name` is not a column; otherwise
      removes exactly the rows whose `name` cell is missing, keeping the rest in order. */
  function DropNa(f: Frame, name: string): (r: Result<Frame, Error>)
    ensures r.Err? <==> !HasColumn(f, name)
    ensures r.Ok? ==> r.value.columns == f.columns
    ensures r.Ok? ==> forall x :: x in r.value.rows <==> x in f.rows && At(x, name) != NaN
    ensures r.Ok? ==> IsSubseq(r.value.rows, f.rows)
    ensures r.Ok? ==> |r.value.rows| == |f.rows| - CountWhere(f.rows, MissingIn(name))
    ensures r.Ok? && Wf(f) ==> Wf(r.value)
  {
    if !HasColumn(f, name) then Err(ColumnsNotFound({name}))
    else
      FilterIsSubseq(f.rows, PresentIn(name));
      FilterLength(f.rows, PresentIn(name));
      Ok(Frame(f.columns, Filter(f.rows, PresentIn(name))))
  }

  function ReplaceCell(name: string, from: Cell, to: Cell): Row -> Row {
    (r: Row) => if name in r.cells && r.cells[name] == from then Row(r.index, r.cells[name := to]) else r
  }

  /** `df[name] = df[name].replace(from, to)`: raises KeyError if `name` is not a
      column; otherwise every `from` cell of that column becomes `to`. */
  function ReplaceValue(f: Frame, name: string, from: Cell, to: Cell): (r: Result<Frame, Error>)
    ensures r.Err? <==> !HasColumn(f, name)
    ensures r.Ok? ==> r.value.columns == f.columns && |r.value.rows| == |f.rows|
    ensures r.Ok? ==> Labels(r.value.rows) == Labels(f.rows)
    ensures r.Ok? ==> forall i :: 0 <= i < |f.rows| && At(f.rows[i], name) != from ==> r.value.rows[i] == f.rows[i]
    ensures r.Ok? && from != NaN ==> forall i :: 0 <= i < |f.rows| && At(f.rows[i], name) == from
                                       ==> At(r.value.rows[i], name) == to
    ensures r.Ok? ==> forall n :: n != name ==> SameCells(f, r.value, n)
    ensures r.Ok? && Wf(f) ==> Wf(r.value)
  {
    if !HasColumn(f, name) then Err(ColumnsNotFound({name}))
    else Ok(Frame(f.columns, Map(ReplaceCell(name, from, to), f.rows)))
  }

  // ------------------------------------------------------------------- rows

  function Unlabelled(labels: set<int>): Row -> bool {
    (r: Row) => r.index !in labels
  }

  /** Two row sequences that agree position by position on the label and on the verdict
      of their filters keep the same labels through them. */
  lemma {:induction false} FilterAligned(a: seq<Row>, b: seq<Row>, p: Row -> bool, q: Row -> bool)
    requires |a| == |b| && forall i :: 0 <= i < |a| ==> a[i].index == b[i].index && p(a[i]) == q(b[i])
    ensures Labels(Filter(a, p)) == Labels(Filter(b, q))
  {
    if |a| > 0 {
      FilterAligned(a[1..], b[1..], p, q);
      if p(a[0]) {
        var fa, fb := Filter(a, p), Filter(b, q);
        assert fa == [a[0]] + Filter(a[1..], p) && fb == [b[0]] + Filter(b[1..], q);
        assert fa[1..] == Filter(a[1..], p) && fb[1..] == Filter(b[1..], q);
      }
    }
  }

  /** The labels of the index, as a set. */
  function LabelSet(rows: seq<Row>): set<int> {
    set r | r in rows :: r.index
  }

  lemma LabelSetOfLabels(rows: seq<Row>)
    ensures forall l :: l in LabelSet(rows) <==> l in Labels(rows)
  {
    forall l | l in LabelSet(rows) ensures l in Labels(rows) {
      var x :| x in rows && x.index == l;
      var i :| 0 <= i < |rows| && rows[i] == x;
      assert Labels(rows)[i] == l;
    }
  }

  /** `df.drop(labels, axis=0)`: raises KeyError unless every label is in the index;
      otherwise removes every row carrying one of the labels, and nothing else. */
  function DropLabels(f: Frame, labels: set<int>): (r: Result<Frame, Error>)
    ensures r.Err? <==> !(labels <= LabelSet(f.rows))
    ensures r.Err? ==> r.error == LabelsNotFound(labels - LabelSet(f.rows))
    ensures r.Ok? ==> r.value.columns == f.columns
    ensures r.Ok? ==> forall x :: x in r.value.rows <==> x in f.rows && x.index !in labels
    ensures r.Ok? ==> LabelSet(r.value.rows) == LabelSet(f.rows) - labels
    ensures r.Ok? ==> IsSubseq(r.value.rows, f.rows)
    ensures r.Ok? ==> |r.value.rows| == |f.rows| - CountWhere(f.rows, Negate(Unlabelled(labels)))
    ensures r.Ok? && Wf(f) ==> Wf(r.value)
  {
    if !(labels <= LabelSet(f.rows)) then Err(LabelsNotFound(labels - LabelSet(f.rows)))
    else
      var g := FilterRows(f, Unlabelled(labels));
      assert LabelSet(g.rows) == LabelSet(f.rows) - labels by {
        forall l | l in LabelSet(f.rows) - labels ensures l in LabelSet(g.rows) {
          var x :| x in f.rows && x.index == l;
          assert x in g.rows;
        }
      }
      Ok(g)
  }

  /** `df.loc[keep]` for a boolean row mask: the rows satisfying `keep`, in order. */
  function FilterRows(f: Frame, keep: Row -> bool): (g: Frame)
    ensures g.columns == f.columns
    ensures forall x :: x in g.rows <==> x in f.rows && keep(x)
    ensures IsSubseq(g.rows, f.rows)
    ensures |g.rows| == |f.rows| - CountWhere(f.rows, Negate(keep))
    ensures Wf(f) ==> Wf(g)
  {
    FilterIsSubseq(f.rows, keep);
    FilterLength(f.rows, keep);
    Frame(f.columns, Filter(f.rows, keep))
  }

  function CellIn(name: string): Row -> Cell {
    (r: Row) => At(r, name)
  }

  /** The non-missing cells of column `name`, top to bottom: each value as many times
      as the column holds it. */
  function Values(f: Frame, name: string): (vs: seq<Cell>)
    ensures forall v :: v in vs ==> v != NaN
    ensures forall v :: v in vs <==> exists i :: 0 <= i < |f.rows| && At(f.rows[i], name) == v && v != NaN
    ensures forall v :: v != NaN ==> multiset(vs)[v] == multiset(Col(f.rows, name))[v]
  {
    var present := Filter(f.rows, PresentIn(name));
    var vs := Map(CellIn(name), present);
    forall v | v != NaN ensures multiset(vs)[v] == multiset(Col(f.rows, name))[v] {
      PresentCount(f.rows, name, v);
    }
    assert forall v :: v in vs ==> exists r :: r in present && At(r, name) == v;
    forall i | 0 <= i < |f.rows| && At(f.rows[i], name) != NaN
      ensures At(f.rows[i], name) in vs
    {
      assert f.rows[i] in present;
      var j :| 0 <= j < |present| && present[j] == f.rows[i];
      assert vs[j] == At(f.rows[i], name);
    }
    vs
  }

  /** Skipping the missing cells of a column leaves every present value's count alone. */
  lemma {:induction false} PresentCount(rows: seq<Row>, name: string, v: Cell)
    requires v != NaN
    ensures multiset(Map(CellIn(name), Filter(rows, PresentIn(name))))[v] == multiset(Col(rows, name))[v]
  {
    if |rows| > 0 {
      PresentCount(rows[1..], name, v);
      var rest := Map(CellIn(name), Filter(rows[1..], PresentIn(name)));
      assert Col(rows, name) == [At(rows[0], name)] + Col(rows[1..], name);
      if PresentIn(name)(rows[0]) {
        assert Filter(rows, PresentIn(name)) == [rows[0]] + Filter(rows[1..], PresentIn(name));
        assert Map(CellIn(name), Filter(rows, PresentIn(name))) == [At(rows[0], name)] + rest;
      }
    }
  }

  /** Two frames with the same column `name` have the same values there, counted with
      multiplicity. */
  lemma ValuesSameColumn(f: Frame, g: Frame, name: string)
    requires Col(f.rows, name) == Col(g.rows, name)
    ensures multiset(Values(f, name)) == multiset(Values(g, name))
  {
    var a, b := Values(f, name), Values(g, name);
    forall v ensures multiset(a)[v] == multiset(b)[v] {
      if v == NaN {
        assert v !in a && v !in b;
      }
    }
  }

  /** `df.sort_values(name)` whose result is discarded: raises KeyError if `name` is not
      a column, and otherwise leaves the frame as it was. */
  function SortValuesDiscarded(f: Frame, name: string): (r: Result<Frame, Error>)
    ensures r.Err? <==> !HasColumn(f, name)
    ensures r.Err? ==> r.error == ColumnsNotFound({name})
    ensures r.Ok? ==> r.value == f
  {
    if !HasColumn(f, name) then Err(ColumnsNotFound({name})) else Ok(f)
  }
}

=== FILE: mode.dfy ===
/** `Series.mode()[0]`: pandas returns every most frequent value, sorted, so the
    first one is the least of the most frequent values. */
module Mode {
  import opened Results
  import opened Frames

  /** Python's string order: lexicographic by code point. */
  predicate LexLe(a: string, b: string)
    decreases |a|
  {
    |a| == 0 || (|b| > 0 && (a[0] < b[0] || (a[0] == b[0] && LexLe(a[1..], b[1..]))))
  }

  /** The order pandas sorts modes by: numbers by value, strings lexicographically.
      pandas cannot order a number against a string; the model puts numbers first,
      and missing values (never a mode) last. */
  predicate CellLe(a: Cell, b: Cell) {
    match (a, b)
    case (Num(x), Num(y)) => x <= y
    case (Num(_), _) => true
    case (Str(s), Str(t)) => LexLe(s, t)
    case (Str(_), Num(_)) => false
    case (Str(_), NaN) => true
    case (NaN, NaN) => true
    case (NaN, _) => false
  }

  lemma {:induction false} LexLeTotal(a: string, b: string)
    ensures LexLe(a, b) || LexLe(b, a)
    decreases |a|
  {
    if |a| > 0 && |b| > 0 && a[0] == b[0] {
      LexLeTotal(a[1..], b[1..]);
    }
  }

  lemma {:induction false} LexLeAntisym(a: string, b: string)
    requires LexLe(a, b) && LexLe(b, a)
    ensures a == b
    decreases |a|
  {
    if |a| > 0 {
      LexLeAntisym(a[1..], b[1..]);
      assert a == [a[0]] + a[1..] && b == [b[0]] + b[1..];
    }
  }

  lemma {:induction false} LexLeTrans(a: string, b: string, c: string)
    requires LexLe(a, b) && LexLe(b, c)
    ensures LexLe(a, c)
    decreases |a|
  {
    if |a| > 0 && a[0] == b[0] && b[0] == c[0] {
      LexLeTrans(a[1..], b[1..], c[1..]);
    }
  }

  lemma CellLeTotal(a: Cell, b: Cell)
    ensures CellLe(a, b) || CellLe(b, a)
  {
    if a.Str? && b.Str? {
      LexLeTotal(a.s, b.s);
    }
  }

  lemma CellLeAntisym(a: Cell, b: Cell)
    requires CellLe(a, b) && CellLe(b, a)
    ensures a == b
  {
    if a.Str? && b.Str? {
      LexLeAntisym(a.s, b.s);
    }
  }

  lemma CellLeTrans(a: Cell, b: Cell, c: Cell)
    requires CellLe(a, b) && CellLe(b, c)
    ensures CellLe(a, c)
  {
    if a.Str? && b.Str? && c.Str? {
      LexLeTrans(a.s, b.s, c.s);
    }
  }

  /** `a` is at least as good a mode candidate of `pool` as `b`: strictly more
      frequent, or as frequent and no greater. */
  predicate Beats(a: Cell, b: Cell, pool: seq<Cell>) {
    multiset(pool)[a] > multiset(pool)[b] || (multiset(pool)[a] == multiset(pool)[b] && CellLe(a, b))
  }

  /** `m` is what `mode()[0]` returns for the values `vs`. */
  ghost predicate IsMode(m: Cell, vs: seq<Cell>) {
    m in vs && forall v :: v in vs ==> Beats(m, v, vs)
  }

  /** The best candidate among `cands` by frequency in `pool`, ties to the least. */
  function Best(cands: seq<Cell>, pool: seq<Cell>): (m: Cell)
    requires |cands| > 0
    ensures m in cands
    ensures forall v :: v in cands ==> Beats(m, v, pool)
  {
    if |cands| == 1 then
      CellLeTotal(cands[0], cands[0]);
      cands[0]
    else
      var rest := Best(cands[1..], pool);
      assert forall v :: v in cands ==> v == cands[0] || v in cands[1..];
      CellLeTotal(cands[0], rest);
      CellLeTotal(cands[0], cands[0]);
      if Beats(cands[0], rest, pool) then
        forall v | v in cands[1..] ensures Beats(cands[0], v, pool) {
          if multiset(pool)[cands[0]] == multiset(pool)[v] {
            CellLeTrans(cands[0], rest, v);
          }
        }
        cands[0]
      else
        rest
  }

  /** `mode()`, first element: `None` where pandas' `[0]` raises on an empty result. */
  function ModeOf(vs: seq<Cell>): (r: Option<Cell>)
    ensures r.None? <==> |vs| == 0
    ensures r.Some? ==> IsMode(r.value, vs)
  {
    if |vs| == 0 then None else Some(Best(vs, vs))
  }

  /** The mode is determined by the values alone: at most one value is a mode. */
  lemma ModeUnique(a: Cell, b: Cell, vs: seq<Cell>)
    requires IsMode(a, vs) && IsMode(b, vs)
    ensures a == b
  {
    assert Beats(a, b, vs) && Beats(b, a, vs);
    CellLeAntisym(a, b);
  }

  /** `df[name].mode()[0]`: KeyError if `name` is not a column, an error if the
      column holds no value. */
  function ColumnMode(f: Frame, name: string): (r: Result<Cell, Error>)
    ensures r.Err? <==> !HasColumn(f, name) || |Values(f, name)| == 0
    ensures r.Ok? ==> r.value != NaN && IsMode(r.value, Values(f, name))
  {
    if !HasColumn(f, name) then Err(ColumnsNotFound({name}))
    else match ModeOf(Values(f, name))
      case None => Err(EmptyMode(name))
      case Some(m) => Ok(m)
  }

  /** The mode depends on the values only through how often each occurs. */
  lemma ModeSameValues(m: Cell, a: seq<Cell>, b: seq<Cell>)
    requires multiset(a) == multiset(b) && IsMode(m, a)
    ensures IsMode(m, b)
  {
    assert m in multiset(a);
    forall v | v in b ensures Beats(m, v, b) {
      assert v in multiset(b);
      assert v in a && Beats(m, v, a);
    }
  }
}

=== FILE: pipeline.dfy ===
/** The two functions of the cleaning module run one after the other, as the analysis
    scripts use them. */
module Pipeline {
  import opened Results
  import opened Frames
  import opened Encoding
  import opened Cleaning
  import opened Preprocessing

  /** Cleaning has already rewritten "Undefined" meals to "SC", so the code 4 of the meal
      table never comes out of the encoding: a 4 in `X` was a 4 before. */
  lemma MealNeverCodeFour(raw: Frame, parse: Cell -> Option<Date>, log1p: real -> real, mean: seq<real> -> real, df: Frame, out: Xy)
    requires Wf(raw) && CleanDf(raw) == Ok(df) && Preprocess(df, parse, log1p, mean) == Ok(out)
    ensures forall i :: 0 <= i < |df.rows| && At(df.rows[i], "meal") != Code(4) ==> At(out.x.rows[i], "meal") != Code(4)
  {
    Cleaned(raw, df);
    Preprocessed(parse, log1p, mean, df, out);
    MealRows(df, out.x);
  }

  lemma Preprocessed(parse: Cell -> Option<Date>, log1p: real -> real, mean: seq<real> -> real, df: Frame, out: Xy)
    requires Wf(df) && Preprocess(df, parse, log1p, mean) == Ok(out)
    ensures UntouchedInX(df, out.x)
  {
  }

  /** On a frame with no "Undefined" meal, the meal column of `X` holds a 4 only where the
      frame did. */
  lemma MealRows(df: Frame, x: Frame)
    requires forall r :: r in df.rows ==> At(r, "meal") != Undefined
    requires UntouchedInX(df, x)
    ensures forall i :: 0 <= i < |df.rows| && At(df.rows[i], "meal") != Code(4) ==> At(x.rows[i], "meal") != Code(4)
  {
    MealUntouched();
    forall i | 0 <= i < |df.rows| && At(df.rows[i], "meal") != Code(4) ensures At(x.rows[i], "meal") != Code(4) {
      assert df.rows[i] in df.rows;
      MealCell(At(df.rows[i], "meal"), At(x.rows[i], "meal"));
    }
  }

  lemma Cleaned(raw: Frame, df: Frame)
    requires Wf(raw) && CleanDf(raw) == Ok(df)
    ensures Wf(df) && forall x :: x in df.rows ==> At(x, "meal") != Undefined
  {
  }

  lemma MealUntouched()
    ensures Untouched("meal")
  {
  }

  lemma MealCell(c: Cell, e: Cell)
    requires e in {c, EncodeCell(TableOf("meal"), c)} && c != Undefined && c != Code(4)
    ensures e != Code(4)
  {
    MealFourIsUndefined(c);
  }
}

=== FILE: preprocessing.dfy ===
/** `preprocessing_df`: drops the columns the classifier does not use, splits the
    reservation status date into year, month and day, encodes the categorical columns
    and log-transforms four numeric ones, and returns the feature frame `X` with the
    label column `y`. Date parsing, `log1p` and `mean` are parameters. */
module Preprocessing {
  import opened Results
  import opened Seqs
  import opened Frames
  import opened Encoding

  /** `useless_col`; the literal lists "days_in_waiting_list" twice, which `drop`
      accepts, so the set loses nothing. */
  const UselessColumns: set<string> :=
    {"days_in_waiting_list", "arrival_date_year", "assigned_room_type", "booking_changes",
     "reservation_status", "country"}

  const DateColumn: string := "reservation_status_date"

  /** The columns passed through `np.log1p`, in loop order. */
  const LogColumns: seq<string> := ["lead_time", "arrival_date_week_number", "arrival_date_day_of_month", "adr"]

  const Target: string := "is_canceled"

  /** The columns the date split drops. */
  const DateDrops: set<string> := {DateColumn, "arrival_date_month"}

  /** The columns the date split writes or drops. */
  const DateColumns: set<string> := {"year", "month", "day", DateColumn, "arrival_date_month"}

  // ------------------------------------------------------------------ dates

  datatype Date = Date(year: int, month: int, day: int)

  /** The three `.dt` accessors used. */
  datatype Part = Year | Month | Day

  function PartName(p: Part): string {
    match p
    case Year => "year"
    case Month => "month"
    case Day => "day"
  }

  function Field(d: Date, p: Part): int {
    match p
    case Year => d.year
    case Month => d.month
    case Day => d.day
  }

  /** A cell `to_datetime` cannot convert: present, and rejected by the parser. */
  predicate Rejected(c: Cell, parse: Cell -> Option<Date>) {
    c != NaN && parse(c).None?
  }

  /** `pd.to_datetime` on a column: a missing cell becomes NaT (`None`), any other cell
      must parse, and one that does not makes the whole call raise. */
  function ParseDates(cells: seq<Cell>, parse: Cell -> Option<Date>): (r: Result<seq<Option<Date>>, Error>)
    ensures r.Err? <==> !forall i :: 0 <= i < |cells| ==> !Rejected(cells[i], parse)
    ensures r.Ok? ==> |r.value| == |cells|
    ensures r.Ok? ==> forall i :: 0 <= i < |cells| ==> (r.value[i].None? <==> cells[i] == NaN)
    ensures r.Ok? ==> forall i :: 0 <= i < |cells| && cells[i] != NaN ==> r.value[i] == parse(cells[i])
  {
    if |cells| == 0 then Ok([])
    else
      var head := if cells[0] == NaN then Some(None) else if parse(cells[0]).None? then None else Some(parse(cells[0]));
      match (head, ParseDates(cells[1..], parse))
      case (None, _) => Err(Frames.Unparsable(DateColumn))
      case (_, Err(e)) =>
        ghost var i :| 0 <= i < |cells[1..]| && Rejected(cells[1..][i], parse);
        assert Rejected(cells[i + 1], parse);
        Err(e)
      case (Some(d), Ok(rest)) =>
        assert forall i :: 1 <= i < |cells| ==> cells[i] == cells[1..][i - 1];
        Ok([d] + rest)
  }

  /** The cell `.dt.<part>` yields for one parsed value; NaT gives a missing value. */
  function PartCell(d: Option<Date>, p: Part): Cell {
    match d
    case Some(date) => Num(Field(date, p) as real)
    case None => NaN
  }

  /** `.dt.<part>` of the whole column. */
  function Parts(ds: seq<Option<Date>>, p: Part): (cs: seq<Cell>)
    ensures |cs| == |ds| && forall i :: 0 <= i < |ds| ==> cs[i] == PartCell(ds[i], p)
  {
    Map((d: Option<Date>) => PartCell(d, p), ds)
  }

  /** `.dt.<part>` is an integer column, or a float one when a NaT forces missing values. */
  function PartType(ds: seq<Option<Date>>): (t: DType)
    ensures t != Object
    ensures t == Int64 <==> forall i :: 0 <= i < |ds| ==> ds[i].Some?
  {
    if None in ds then Float64 else Int64
  }

  /** `dataset[part] = dataset[DateColumn].dt.<part>` */
  function SetPart(f: Frame, ds: seq<Option<Date>>, p: Part): (g: Frame)
    requires |ds| == |f.rows|
    ensures NameSet(g.columns) == NameSet(f.columns) + {PartName(p)}
    ensures |g.rows| == |f.rows| && Labels(g.rows) == Labels(f.rows)
    ensures Col(g.rows, PartName(p)) == Parts(ds, p)
    ensures forall n :: n != PartName(p) ==> SameCells(f, g, n)
    ensures forall c :: c in g.columns && c.name == PartName(p) ==> c.dtype != Object
    ensures forall c: Column :: c.name != PartName(p) ==> (c in g.columns <==> c in f.columns)
    ensures Wf(f) ==> Wf(g)
  {
    SetColumn(f, PartName(p), PartType(ds), Parts(ds, p))
  }

  /** Date part columns carry no object dtype. */
  ghost predicate PartsTyped(f: Frame) {
    forall c :: c in f.columns && c.name in {"year", "month", "day"} ==> c.dtype != Object
  }

  /** Year, month and day are set from the parsed dates, then the date column and
      `arrival_date_month` are dropped, raising if either is absent. */
  function SplitDate(f: Frame, ds: seq<Option<Date>>): (r: Result<Frame, Error>)
    requires |ds| == |f.rows|
    ensures r.Err? <==> !(DateDrops <= NameSet(f.columns))
    ensures r.Ok? ==> NameSet(r.value.columns) == NameSet(f.columns) - DateDrops + {"year", "month", "day"}
    ensures r.Ok? ==> |r.value.rows| == |f.rows| && Labels(r.value.rows) == Labels(f.rows)
    ensures r.Ok? ==> forall p :: Col(r.value.rows, PartName(p)) == Parts(ds, p)
    ensures r.Ok? ==> PartsTyped(r.value)
    ensures r.Ok? ==> forall n :: n !in DateColumns ==> SameCells(f, r.value, n)
    ensures r.Ok? ==> forall c: Column :: c.name !in DateColumns ==> (c in r.value.columns <==> c in f.columns)
    ensures r.Ok? && Wf(f) ==> Wf(r.value)
  {
    var f1 := SetPart(f, ds, Year);
    var f2 := SetPart(f1, ds, Month);
    var f3 := SetPart(f2, ds, Day);
    SplitNames(NameSet(f.columns), NameSet(f1.columns), NameSet(f2.columns), NameSet(f3.columns));
    match DropColumns(f3, DateDrops)
    case Err(e) => Err(e)
    case Ok(g) =>
      PartsKept(f, ds, f1, f2, f3, g);
      PartsStayTyped(f1, f2, f3, g);
      SplitColumns(f, f1, f2, f3, g);
      Ok(g)
  }

  /** The name sets along the split, as plain set algebra. */
  lemma SplitNames(a: set<string>, b1: set<string>, b2: set<string>, b3: set<string>)
    requires b1 == a + {PartName(Year)} && b2 == b1 + {PartName(Month)} && b3 == b2 + {PartName(Day)}
    ensures DateDrops <= b3 <==> DateDrops <= a
    ensures b3 - DateDrops == a - DateDrops + {"year", "month", "day"}
  {
  }

  lemma SplitColumns(f: Frame, f1: Frame, f2: Frame, f3: Frame, g: Frame)
    requires forall c: Column :: c.name != PartName(Year) ==> (c in f1.columns <==> c in f.columns)
    requires forall c: Column :: c.name != PartName(Month) ==> (c in f2.columns <==> c in f1.columns)
    requires forall c: Column :: c.name != PartName(Day) ==> (c in f3.columns <==> c in f2.columns)
    requires forall c :: c in g.columns <==> c in f3.columns && c.name !in DateDrops
    ensures forall c: Column :: c.name !in DateColumns ==> (c in g.columns <==> c in f.columns)
  {
  }

  lemma PartsStayTyped(f1: Frame, f2: Frame, f3: Frame, g: Frame)
    requires forall c :: c in f1.columns && c.name == PartName(Year) ==> c.dtype != Object
    requires forall c :: c in f2.columns && c.name == PartName(Month) ==> c.dtype != Object
    requires forall c :: c in f2.columns && c.name != PartName(Month) ==> c in f1.columns
    requires forall c :: c in f3.columns && c.name == PartName(Day) ==> c.dtype != Object
    requires forall c :: c in f3.columns && c.name != PartName(Day) ==> c in f2.columns
    requires forall c :: c in g.columns ==> c in f3.columns
    ensures PartsTyped(g)
  {
  }

  lemma PartsKept(f: Frame, ds: seq<Option<Date>>, f1: Frame, f2: Frame, f3: Frame, g: Frame)
    requires Col(f1.rows, PartName(Year)) == Parts(ds, Year) && forall n :: n != PartName(Year) ==> SameCells(f, f1, n)
    requires Col(f2.rows, PartName(Month)) == Parts(ds, Month) && forall n :: n != PartName(Month) ==> SameCells(f1, f2, n)
    requires Col(f3.rows, PartName(Day)) == Parts(ds, Day) && forall n :: n != PartName(Day) ==> SameCells(f2, f3, n)
    requires forall n :: n !in DateDrops ==> SameCells(f3, g, n)
    ensures forall p :: Col(g.rows, PartName(p)) == Parts(ds, p)
    ensures forall n :: n !in DateColumns ==> SameCells(f, g, n)
  {
    forall p ensures Col(g.rows, PartName(p)) == Parts(ds, p) {
      match p
      case Year => assert SameCells(f1, f2, "year") && SameCells(f2, f3, "year") && SameCells(f3, g, "year");
      case Month => assert SameCells(f2, f3, "month") && SameCells(f3, g, "month");
      case Day => assert SameCells(f3, g, "day");
    }
    forall n | n !in DateColumns ensures SameCells(f, g, n) {
      assert SameCells(f, f1, n) && SameCells(f1, f2, n) && SameCells(f2, f3, n) && SameCells(f3, g, n);
    }
  }

  /** Every present date cell parses. */
  ghost predicate DatesParse(f: Frame, parse: Cell -> Option<Date>) {
    forall i :: 0 <= i < |f.rows| ==> !Rejected(At(f.rows[i], DateColumn), parse)
  }

  /** The `if` around the date split: with no date column nothing happens; otherwise the
      column is parsed (raising on a value that does not parse) and split. */
  function ExtractDate(f: Frame, parse: Cell -> Option<Date>): (r: Result<Frame, Error>)
    ensures !HasColumn(f, DateColumn) ==> r == Ok(f)
    ensures HasColumn(f, DateColumn) ==>
              (r.Err? <==> !HasColumn(f, "arrival_date_month") || !DatesParse(f, parse))
    ensures r.Ok? && HasColumn(f, DateColumn) ==>
              NameSet(r.value.columns) == NameSet(f.columns) - {DateColumn, "arrival_date_month"} + {"year", "month", "day"}
    ensures r.Ok? ==> |r.value.rows| == |f.rows| && Labels(r.value.rows) == Labels(f.rows)
    ensures r.Ok? && HasColumn(f, DateColumn) ==>
              forall i, p :: 0 <= i < |f.rows| && At(f.rows[i], DateColumn) != NaN
                             ==> At(r.value.rows[i], PartName(p)) == Num(Field(parse(At(f.rows[i], DateColumn)).value, p) as real)
    ensures r.Ok? && HasColumn(f, DateColumn) ==>
              forall i, p :: 0 <= i < |f.rows| && At(f.rows[i], DateColumn) == NaN ==> At(r.value.rows[i], PartName(p)) == NaN
    ensures r.Ok? && HasColumn(f, DateColumn) ==> PartsTyped(r.value)
    ensures r.Ok? ==> forall n :: n !in DateColumns ==> SameCells(f, r.value, n)
    ensures r.Ok? ==> forall c: Column :: c.name !in DateColumns ==> (c in r.value.columns <==> c in f.columns)
    ensures r.Ok? && Wf(f) ==> Wf(r.value)
  {
    if !HasColumn(f, DateColumn) then Ok(f)
    else
      var cells := Col(f.rows, DateColumn);
      ParseAll(f, parse);
      match ParseDates(cells, parse)
      case Err(e) => Err(e)
      case Ok(ds) =>
        match SplitDate(f, ds)
        case Err(e) => Err(e)
        case Ok(g) =>
          PartsParsed(f, parse, ds, g);
          Ok(g)
  }

  lemma ParseAll(f: Frame, parse: Cell -> Option<Date>)
    ensures ParseDates(Col(f.rows, DateColumn), parse).Err? <==> !DatesParse(f, parse)
  {
    var cells := Col(f.rows, DateColumn);
    assert forall i :: 0 <= i < |f.rows| ==> cells[i] == At(f.rows[i], DateColumn);
  }

  lemma PartsParsed(f: Frame, parse: Cell -> Option<Date>, ds: seq<Option<Date>>, g: Frame)
    requires ParseDates(Col(f.rows, DateColumn), parse) == Ok(ds)
    requires |g.rows| == |f.rows| && forall p :: Col(g.rows, PartName(p)) == Parts(ds, p)
    ensures forall i, p :: 0 <= i < |f.rows| && At(f.rows[i], DateColumn) != NaN
                           ==> At(g.rows[i], PartName(p)) == Num(Field(parse(At(f.rows[i], DateColumn)).value, p) as real)
    ensures forall i, p :: 0 <= i < |f.rows| && At(f.rows[i], DateColumn) == NaN ==> At(g.rows[i], PartName(p)) == NaN
  {
    forall i, p | 0 <= i < |f.rows| ensures At(g.rows[i], PartName(p)) == PartCell(ds[i], p) {
      assert Col(g.rows, PartName(p))[i] == Parts(ds, p)[i];
    }
  }

  // ---------------------------------------------------------------- columns

  /** The column drops and the date split: `adr_pp` and the useless columns are dropped
      (each drop raising on a missing name), then the date is split. */
  function Prepare(df: Frame, parse: Cell -> Option<Date>): (r: Result<Frame, Error>)
    ensures !HasColumn(df, "adr_pp") || !(UselessColumns <= NameSet(df.columns)) ==> r.Err?
    ensures r.Ok? ==> |r.value.rows| == |df.rows| && Labels(r.value.rows) == Labels(df.rows)
    ensures r.Ok? && !HasColumn(df, DateColumn) ==>
              NameSet(r.value.columns) == NameSet(df.columns) - {"adr_pp"} - UselessColumns
    ensures r.Ok? && HasColumn(df, DateColumn) ==>
              NameSet(r.value.columns) == NameSet(df.columns) - {"adr_pp"} - UselessColumns - DateDrops + {"year", "month", "day"}
    ensures r.Ok? && HasColumn(df, DateColumn) ==> PartsTyped(r.value)
    ensures r.Ok? && HasColumn(df, DateColumn) ==> DatesParse(df, parse)
    ensures r.Ok? && HasColumn(df, DateColumn) ==>
              forall i, p :: 0 <= i < |df.rows| && At(df.rows[i], DateColumn) != NaN
                             ==> At(r.value.rows[i], PartName(p)) == Num(Field(parse(At(df.rows[i], DateColumn)).value, p) as real)
    ensures r.Ok? && HasColumn(df, DateColumn) ==>
              forall i, p :: 0 <= i < |df.rows| && At(df.rows[i], DateColumn) == NaN ==> At(r.value.rows[i], PartName(p)) == NaN
    ensures r.Ok? ==> forall n :: n !in UselessColumns && n !in DateColumns && n != "adr_pp" ==> SameCells(df, r.value, n)
    ensures r.Ok? ==> forall c: Column :: c.name !in UselessColumns && c.name !in DateColumns && c.name != "adr_pp"
                                 ==> (c in r.value.columns <==> c in df.columns)
    ensures r.Ok? && Wf(df) ==> Wf(r.value)
  {
    match DropColumns(df, {"adr_pp"})
    case Err(e) => Err(e)
    case Ok(d1) =>
      PrepareNames(NameSet(df.columns), NameSet(d1.columns));
      match DropColumns(d1, UselessColumns)
      case Err(e) => Err(e)
      case Ok(d2) =>
        match ExtractDate(d2, parse)
        case Err(e) => Err(e)
        case Ok(d3) =>
          PrepareFacts(df, d1, d2, d3);
          if HasColumn(df, DateColumn) then
            assert SameCells(df, d1, DateColumn) && SameCells(d1, d2, DateColumn);
            DatesKept(df, d2, d3, parse);
            Ok(d3)
          else
            Ok(d3)
  }

  /** The date column survives the drops with its cells, so the parts the split computes
      from the dropped-into frame are the parts of the input's dates. */
  lemma DatesKept(df: Frame, d2: Frame, d3: Frame, parse: Cell -> Option<Date>)
    requires |d2.rows| == |df.rows| && SameCells(df, d2, DateColumn)
    requires DatesParse(d2, parse) && |d3.rows| == |d2.rows|
    requires forall i, p :: 0 <= i < |d2.rows| && At(d2.rows[i], DateColumn) != NaN
                            ==> At(d3.rows[i], PartName(p)) == Num(Field(parse(At(d2.rows[i], DateColumn)).value, p) as real)
    requires forall i, p :: 0 <= i < |d2.rows| && At(d2.rows[i], DateColumn) == NaN ==> At(d3.rows[i], PartName(p)) == NaN
    ensures DatesParse(df, parse)
    ensures forall i, p :: 0 <= i < |df.rows| && At(df.rows[i], DateColumn) != NaN
                           ==> At(d3.rows[i], PartName(p)) == Num(Field(parse(At(df.rows[i], DateColumn)).value, p) as real)
    ensures forall i, p :: 0 <= i < |df.rows| && At(df.rows[i], DateColumn) == NaN ==> At(d3.rows[i], PartName(p)) == NaN
  {
    forall i | 0 <= i < |df.rows| ensures At(d2.rows[i], DateColumn) == At(df.rows[i], DateColumn) {
      SameCellsAt(df, d2, DateColumn, i);
    }
  }

  /** The name sets along the drops, as plain set algebra. */
  lemma PrepareNames(a: set<string>, b1: set<string>)
    requires b1 == a - {"adr_pp"}
    ensures UselessColumns <= b1 <==> UselessColumns <= a
    ensures DateColumn in b1 - UselessColumns <==> DateColumn in a
  {
  }

  lemma PrepareFacts(df: Frame, d1: Frame, d2: Frame, d3: Frame)
    requires forall n :: n !in {"adr_pp"} ==> SameCells(df, d1, n)
    requires forall n :: n !in UselessColumns ==> SameCells(d1, d2, n)
    requires forall n :: n !in DateColumns ==> SameCells(d2, d3, n)
    ensures forall n :: n !in UselessColumns && n !in DateColumns && n != "adr_pp" ==> SameCells(df, d3, n)
  {
    forall n | n !in UselessColumns && n !in DateColumns && n != "adr_pp" ensures SameCells(df, d3, n) {
      assert SameCells(df, d1, n) && SameCells(d1, d2, n) && SameCells(d2, d3, n);
    }
  }

  // ---------------------------------------------------------- numeric columns

  /** `np.log1p` on one cell; a missing value stays missing. */
  function LogCell(c: Cell, log1p: real -> real): Cell {
    match c
    case Num(x) => Num(log1p(x))
    case _ => c
  }

  function LogCells(cs: seq<Cell>, log1p: real -> real): (ls: seq<Cell>)
    ensures |ls| == |cs| && forall i :: 0 <= i < |cs| ==> ls[i] == LogCell(cs[i], log1p)
  {
    Map((c: Cell) => LogCell(c, log1p), cs)
  }

  /** `df[name] = np.log1p(df[name])`: raises KeyError when `name` is not a column; the
      column becomes a float column. */
  function LogColumn(f: Frame, name: string, log1p: real -> real): (r: Result<Frame, Error>)
    ensures r.Err? <==> !HasColumn(f, name)
    ensures r.Ok? ==> NameSet(r.value.columns) == NameSet(f.columns)
    ensures r.Ok? ==> |r.value.rows| == |f.rows| && Labels(r.value.rows) == Labels(f.rows)
    ensures r.Ok? ==> Col(r.value.rows, name) == LogCells(Col(f.rows, name), log1p)
    ensures r.Ok? ==> forall n :: n != name ==> SameCells(f, r.value, n)
    ensures r.Ok? ==> forall c :: c in r.value.columns && c.name == name ==> c.dtype == Float64
    ensures r.Ok? ==> forall c :: c in r.value.columns && c.name != name ==> c in f.columns
    ensures r.Ok? && Wf(f) ==> Wf(r.value)
  {
    if !HasColumn(f, name) then Err(ColumnsNotFound({name}))
    else
      var g := SetColumn(f, name, Float64, LogCells(Col(f.rows, name), log1p));
      assert Col(g.rows, name) == LogCells(Col(f.rows, name), log1p);
      Ok(g)
  }

  /** The `for` loop over `names`: each column in turn, the first missing one raising. */
  function LogAll(f: Frame, names: seq<string>, log1p: real -> real): (r: Result<Frame, Error>)
    ensures r.Err? <==> exists n :: n in names && !HasColumn(f, n)
    ensures r.Ok? ==> NameSet(r.value.columns) == NameSet(f.columns)
    ensures r.Ok? ==> |r.value.rows| == |f.rows| && Labels(r.value.rows) == Labels(f.rows)
    ensures r.Ok? && NoDuplicates(names) ==> forall n :: n in names ==> Col(r.value.rows, n) == LogCells(Col(f.rows, n), log1p)
    ensures r.Ok? ==> forall n :: n !in names ==> SameCells(f, r.value, n)
    ensures r.Ok? ==> forall c :: c in r.value.columns && c.name in names ==> c.dtype == Float64
    ensures r.Ok? ==> forall c :: c in r.value.columns && c.name !in names ==> c in f.columns
    ensures r.Ok? && Wf(f) ==> Wf(r.value)
    decreases |names|
  {
    if |names| == 0 then Ok(f)
    else
      match LogColumn(f, names[0], log1p)
      case Err(e) => Err(e)
      case Ok(f1) =>
        assert forall n :: HasColumn(f1, n) <==> HasColumn(f, n);
        match LogAll(f1, names[1..], log1p)
        case Err(e) => Err(e)
        case Ok(g) =>
          LogAllStep(f, names, log1p, f1, g);
          Ok(g)
  }

  predicate NoDuplicates(names: seq<string>) {
    forall i, j :: 0 <= i < j < |names| ==> names[i] != names[j]
  }

  lemma AdrIsLogged(num: Frame, num1: Frame)
    requires !exists n :: n in LogColumns && !HasColumn(num, n)
    requires NameSet(num1.columns) == NameSet(num.columns)
    ensures HasColumn(num1, "adr")
  {
    assert "adr" in LogColumns;
  }

  lemma LogColumnsDistinct()
    ensures NoDuplicates(LogColumns)
  {
  }

  lemma LogAllStep(f: Frame, names: seq<string>, log1p: real -> real, f1: Frame, g: Frame)
    requires |names| > 0
    requires Col(f1.rows, names[0]) == LogCells(Col(f.rows, names[0]), log1p)
    requires Labels(f1.rows) == Labels(f.rows)
    requires forall n :: n != names[0] ==> SameCells(f, f1, n)
    requires forall c :: c in f1.columns && c.name == names[0] ==> c.dtype == Float64
    requires forall c :: c in f1.columns && c.name != names[0] ==> c in f.columns
    requires NoDuplicates(names[1..]) ==> forall n :: n in names[1..] ==> Col(g.rows, n) == LogCells(Col(f1.rows, n), log1p)
    requires forall n :: n !in names[1..] ==> SameCells(f1, g, n)
    requires forall c :: c in g.columns && c.name in names[1..] ==> c.dtype == Float64
    requires forall c :: c in g.columns && c.name !in names[1..] ==> c in f1.columns
    ensures NoDuplicates(names) ==> forall n :: n in names ==> Col(g.rows, n) == LogCells(Col(f.rows, n), log1p)
    ensures forall n :: n !in names ==> SameCells(f, g, n)
    ensures forall c :: c in g.columns && c.name in names ==> c.dtype == Float64
    ensures forall c :: c in g.columns && c.name !in names ==> c in f.columns
  {
    if NoDuplicates(names) {
      assert NoDuplicates(names[1..]);
      forall n | n in names ensures Col(g.rows, n) == LogCells(Col(f.rows, n), log1p) {
        if n == names[0] {
          assert n !in names[1..];
          assert SameCells(f1, g, n);
        } else {
          assert n in names[1..];
          assert SameCells(f, f1, n);
        }
      }
    }
    forall n | n !in names ensures SameCells(f, g, n) {
      assert n !in names[1..] && n != names[0];
      assert SameCells(f, f1, n) && SameCells(f1, g, n);
    }
  }

  /** The numbers of a column, top to bottom; missing cells are skipped. */
  function Numbers(cs: seq<Cell>): (xs: seq<real>)
    ensures forall x :: x in xs <==> Num(x) in cs
    ensures forall x :: multiset(xs)[x] == multiset(cs)[Num(x)]
    ensures |xs| <= |cs|
  {
    if |cs| == 0 then []
    else
      var rest := Numbers(cs[1..]);
      assert cs == [cs[0]] + cs[1..];
      assert multiset(cs) == multiset{cs[0]} + multiset(cs[1..]);
      match cs[0]
      case Num(x) => assert multiset([x] + rest) == multiset{x} + multiset(rest); [x] + rest
      case _ => rest
  }

  /** `df[name].mean()`: NaN when the column holds no number. */
  function MeanCell(cs: seq<Cell>, mean: seq<real> -> real): (m: Cell)
    ensures m == NaN <==> forall i :: 0 <= i < |cs| ==> !cs[i].Num?
  {
    var xs := Numbers(cs);
    if |xs| == 0 then
      assert forall i :: 0 <= i < |cs| ==> cs[i] in cs;
      NaN
    else
      assert xs[0] in xs;
      ghost var i :| 0 <= i < |cs| && cs[i] == Num(xs[0]);
      Num(mean(xs))
  }

  // --------------------------------------------------------------- assembly

  function IsObject(c: Column): bool {
    c.dtype == Object
  }

  /** `cat_cols`: the object columns, in frame order. */
  function CatColumns(d: Frame): seq<Column> {
    Filter(d.columns, IsObject)
  }

  function CatNames(d: Frame): set<string> {
    NameSet(CatColumns(d))
  }

  /** The value `adr` is filled with: the mean of the log-transformed column. */
  function AdrFill(d: Frame, log1p: real -> real, mean: seq<real> -> real): Cell {
    MeanCell(LogCells(Col(d.rows, "adr"), log1p), mean)
  }

  /** What `X` holds in column `n` of row `i`, column by column as the code builds it. */
  function Feature(d: Frame, log1p: real -> real, mean: seq<real> -> real, i: int, n: string): Cell
    requires 0 <= i < |d.rows|
  {
    var c := At(d.rows[i], n);
    if n in CatNames(d) then EncodeCell(TableOf(n), c)
    else if n == Target then NaN
    else if n == "adr" then
      var l := LogCell(c, log1p);
      if l == NaN then AdrFill(d, log1p, mean) else l
    else if n in LogColumns then LogCell(c, log1p)
    else c
  }

  /** The non-object columns less the target, with the four log transforms and the
      `adr` fill applied. */
  function Numeric(d: Frame, log1p: real -> real, mean: seq<real> -> real): (r: Result<Frame, Error>)
    ensures r.Err? <==> !HasColumn(d, Target) || exists n :: n in LogColumns && n !in NameSet(d.columns) - CatNames(d)
    ensures r.Ok? ==> |r.value.rows| == |d.rows| && Labels(r.value.rows) == Labels(d.rows)
    ensures r.Ok? ==> forall c :: c in r.value.columns ==> c.dtype != Object
    ensures r.Ok? ==> NameSet(r.value.columns) == NameSet(d.columns) - (CatNames(d) + {Target})
    ensures r.Ok? && Wf(d) ==> Wf(r.value)
    ensures r.Ok? && Wf(d) ==> forall i, n :: 0 <= i < |d.rows| && n !in CatNames(d) ==> At(r.value.rows[i], n) == Feature(d, log1p, mean, i, n)
  {
    CatNamesAreNames(d);
    match DropColumns(d, CatNames(d) + {Target})
    case Err(e) => Err(e)
    case Ok(num) =>
      LogNames(NameSet(d.columns), CatNames(d), NameSet(num.columns));
      match LogAll(num, LogColumns, log1p)
      case Err(e) => Err(e)
      case Ok(num1) =>
        var num2 := FillNa(num1, "adr", MeanCell(Col(num1.rows, "adr"), mean));
        NumericColumns(d, num, num1);
        assert Wf(d) ==> forall i, n :: 0 <= i < |d.rows| && n !in CatNames(d) ==> At(num2.rows[i], n) == Feature(d, log1p, mean, i, n) by {
          if Wf(d) {
            LogColumnsDistinct();
            AdrIsLogged(num, num1);
            NumericCells(d, log1p, mean, num, num1, num2);
          }
        }
        Ok(num2)
  }

  /** Row for row and column for column, `x` holds the features of `d`. */
  ghost predicate Assembled(d: Frame, log1p: real -> real, mean: seq<real> -> real, x: Frame) {
    |x.rows| == |d.rows| && forall i, n :: 0 <= i < |d.rows| ==> At(x.rows[i], n) == Feature(d, log1p, mean, i, n)
  }

  /** `X`: the encoded object columns first, then the numeric ones. */
  function Assemble(d: Frame, log1p: real -> real, mean: seq<real> -> real): (r: Result<Frame, Error>)
    ensures r.Err? <==> !HasColumn(d, Target) || exists n :: n in LogColumns && n !in NameSet(d.columns) - CatNames(d)
    ensures r.Ok? ==> |r.value.rows| == |d.rows| && Labels(r.value.rows) == Labels(d.rows)
    ensures r.Ok? ==> |CatColumns(d)| <= |r.value.columns| && r.value.columns[..|CatColumns(d)|] == CatColumns(d)
    ensures r.Ok? ==> forall c :: c in r.value.columns[|CatColumns(d)|..] ==> c.dtype != Object
    ensures r.Ok? ==> NameSet(r.value.columns[|CatColumns(d)|..]) == NameSet(d.columns) - (CatNames(d) + {Target})
    ensures r.Ok? && Wf(d) ==> Wf(r.value)
    ensures r.Ok? && Wf(d) ==> Assembled(d, log1p, mean, r.value)
  {
    var enc := EncodeFrame(SelectColumns(d, IsObject));
    match Numeric(d, log1p, mean)
    case Err(e) => Err(e)
    case Ok(num) =>
      var x := Concat(enc, num);
      assert x.columns[|CatColumns(d)|..] == num.columns;
      assert Wf(d) ==> forall i, n :: 0 <= i < |d.rows| ==> At(x.rows[i], n) == Feature(d, log1p, mean, i, n) by {
        if Wf(d) {
          AssembleCells(d, log1p, mean, num, x);
        }
      }
      Ok(x)
  }

  /** The year column is numeric after the date split, so it is never among the object
      columns and the year table never touches it. */
  lemma YearNotEncoded(d: Frame, log1p: real -> real, mean: seq<real> -> real, x: Frame)
    requires PartsTyped(d) && Assembled(d, log1p, mean, x)
    ensures forall i :: 0 <= i < |d.rows| ==> At(x.rows[i], "year") == At(d.rows[i], "year")
  {
    forall i | 0 <= i < |d.rows| ensures At(x.rows[i], "year") == At(d.rows[i], "year") {
      YearFeature(d, log1p, mean, i);
    }
  }

  lemma YearFeature(d: Frame, log1p: real -> real, mean: seq<real> -> real, i: int)
    requires PartsTyped(d) && 0 <= i < |d.rows|
    ensures Feature(d, log1p, mean, i, "year") == At(d.rows[i], "year")
  {
    assert "year" !in LogColumns;
  }

  /** A column the preparation leaves alone reaches `X` either encoded or copied. */
  lemma KeptCells(df: Frame, log1p: real -> real, mean: seq<real> -> real, d: Frame, x: Frame, n: string)
    requires SameCells(df, d, n) && Assembled(d, log1p, mean, x) && Untouched(n)
    ensures forall i :: 0 <= i < |df.rows| ==>
              At(x.rows[i], n) == if n in CatNames(d) then EncodeCell(TableOf(n), At(df.rows[i], n)) else At(df.rows[i], n)
  {
    forall i | 0 <= i < |df.rows|
      ensures At(x.rows[i], n) == if n in CatNames(d) then EncodeCell(TableOf(n), At(df.rows[i], n)) else At(df.rows[i], n)
    {
      SameCellsAt(df, d, n, i);
    }
  }

  lemma CatNamesAreNames(d: Frame)
    ensures CatNames(d) <= NameSet(d.columns)
    ensures forall c :: c in d.columns && c.dtype == Object ==> c.name in CatNames(d)
  {
    forall c | c in d.columns && c.dtype == Object ensures c.name in CatNames(d) {
      assert IsObject(c);
    }
  }

  /** The log loop finds its columns exactly when they are non-object columns of `d`. */
  lemma LogNames(a: set<string>, cats: set<string>, b: set<string>)
    requires b == a - (cats + {Target})
    ensures (exists n :: n in LogColumns && n !in b) <==> (exists n :: n in LogColumns && n !in a - cats)
  {
    assert Target !in LogColumns;
  }

  lemma NumericColumns(d: Frame, num: Frame, num1: Frame)
    requires forall c :: c in num.columns <==> c in d.columns && c.name !in CatNames(d) + {Target}
    requires forall c :: c in num1.columns && c.name in LogColumns ==> c.dtype == Float64
    requires forall c :: c in num1.columns && c.name !in LogColumns ==> c in num.columns
    requires forall c :: c in d.columns && c.dtype == Object ==> c.name in CatNames(d)
    ensures forall c :: c in num1.columns ==> c.dtype != Object
  {
  }

  lemma AssembleCells(d: Frame, log1p: real -> real, mean: seq<real> -> real, num: Frame, x: Frame)
    requires Wf(d) && |num.rows| == |d.rows| && Labels(num.rows) == Labels(d.rows)
    requires forall i, n :: 0 <= i < |d.rows| && n !in CatNames(d) ==> At(num.rows[i], n) == Feature(d, log1p, mean, i, n)
    requires Labels(EncodeFrame(SelectColumns(d, IsObject)).rows) == Labels(num.rows)
    requires x == Concat(EncodeFrame(SelectColumns(d, IsObject)), num)
    ensures forall i, n :: 0 <= i < |d.rows| ==> At(x.rows[i], n) == Feature(d, log1p, mean, i, n)
  {
    EncodedCells(d, log1p, mean, SelectColumns(d, IsObject), EncodeFrame(SelectColumns(d, IsObject)));
  }

  lemma EncodedCells(d: Frame, log1p: real -> real, mean: seq<real> -> real, cat: Frame, enc: Frame)
    requires Wf(d) && cat == SelectColumns(d, IsObject) && enc == EncodeFrame(cat)
    ensures forall i, n :: 0 <= i < |d.rows| && n in CatNames(d) ==> n in enc.rows[i].cells && At(enc.rows[i], n) == Feature(d, log1p, mean, i, n)
    ensures forall i, n :: 0 <= i < |d.rows| && n !in CatNames(d) ==> n !in enc.rows[i].cells
  {
    forall i, n | 0 <= i < |d.rows| && n in CatNames(d)
      ensures n in enc.rows[i].cells && At(enc.rows[i], n) == Feature(d, log1p, mean, i, n)
    {
      EncodedCell(d, cat, enc, i, n);
    }
  }

  lemma NumericCells(d: Frame, log1p: real -> real, mean: seq<real> -> real, num: Frame, num1: Frame, num2: Frame)
    requires Wf(d) && |num2.rows| == |d.rows|
    requires forall n :: n !in CatNames(d) + {Target} ==> SameCells(d, num, n)
    requires forall n :: n in LogColumns ==> Col(num1.rows, n) == LogCells(Col(num.rows, n), log1p)
    requires forall n :: n !in LogColumns ==> SameCells(num, num1, n)
    requires Wf(num1) && NameSet(num1.columns) == NameSet(d.columns) - (CatNames(d) + {Target})
    requires "adr" in NameSet(num1.columns)
    requires num2 == FillNa(num1, "adr", MeanCell(Col(num1.rows, "adr"), mean))
    ensures forall i, n :: 0 <= i < |d.rows| && n !in CatNames(d) ==> At(num2.rows[i], n) == Feature(d, log1p, mean, i, n)
  {
    assert Wf(num2) && !HasColumn(num2, Target);
    assert "adr" !in CatNames(d) + {Target};
    forall i, n | 0 <= i < |d.rows| && n !in CatNames(d) ensures At(num2.rows[i], n) == Feature(d, log1p, mean, i, n) {
      if n == "adr" {
        SameCellsAt(d, num, n, i);
        LoggedCell(num, num1, n, i, log1p);
        AdrCell(d, num, num1, num2, i, log1p, mean);
      } else {
        NumericCell(d, log1p, mean, num, num1, num2, i, n);
      }
    }
  }

  lemma EncodedCell(d: Frame, cat: Frame, enc: Frame, i: int, n: string)
    requires Wf(d) && cat == SelectColumns(d, IsObject) && enc == EncodeFrame(cat)
    requires 0 <= i < |d.rows| && n in CatNames(d)
    ensures n in enc.rows[i].cells && At(enc.rows[i], n) == EncodeCell(TableOf(n), At(d.rows[i], n))
  {
    var c :| c in CatColumns(d) && c.name == n;
    assert c in d.columns && IsObject(c);
    SameCellsAt(d, cat, n, i);
    assert cat.rows[i] in cat.rows;
  }

  /** A cell of the numeric part other than `adr`: the target is gone, the other log
      columns are logged, and the rest are copied. */
  lemma NumericCell(d: Frame, log1p: real -> real, mean: seq<real> -> real, num: Frame, num1: Frame, num2: Frame, i: int, n: string)
    requires 0 <= i < |d.rows| == |num2.rows| && n !in CatNames(d) && n != "adr"
    requires forall n :: n !in CatNames(d) + {Target} ==> SameCells(d, num, n)
    requires forall n :: n in LogColumns ==> Col(num1.rows, n) == LogCells(Col(num.rows, n), log1p)
    requires forall n :: n !in LogColumns ==> SameCells(num, num1, n)
    requires forall n :: n != "adr" ==> SameCells(num1, num2, n)
    requires Wf(num2) && !HasColumn(num2, Target)
    ensures At(num2.rows[i], n) == Feature(d, log1p, mean, i, n)
  {
    if n == Target {
      TargetCell(num2, i);
    } else {
      assert n !in CatNames(d) + {Target};
      SameCellsAt(d, num, n, i);
      if n in LogColumns {
        LoggedCell(num, num1, n, i, log1p);
        SameCellsAt(num1, num2, n, i);
      } else {
        SameCellsAt(num, num1, n, i);
        SameCellsAt(num1, num2, n, i);
      }
    }
  }

  lemma TargetCell(g: Frame, i: int)
    requires Wf(g) && !HasColumn(g, Target) && 0 <= i < |g.rows|
    ensures At(g.rows[i], Target) == NaN
  {
    assert g.rows[i] in g.rows;
  }

  lemma LoggedCell(f: Frame, g: Frame, n: string, i: int, log1p: real -> real)
    requires Col(g.rows, n) == LogCells(Col(f.rows, n), log1p) && 0 <= i < |f.rows|
    ensures i < |g.rows| && At(g.rows[i], n) == LogCell(At(f.rows[i], n), log1p)
  {
    assert Col(g.rows, n)[i] == LogCells(Col(f.rows, n), log1p)[i];
  }

  lemma AdrCell(d: Frame, num: Frame, num1: Frame, num2: Frame, i: int, log1p: real -> real, mean: seq<real> -> real)
    requires 0 <= i < |d.rows| && "adr" !in CatNames(d) && Wf(num1) && HasColumn(num1, "adr")
    requires SameCells(d, num, "adr") && Col(num1.rows, "adr") == LogCells(Col(num.rows, "adr"), log1p)
    requires At(num1.rows[i], "adr") == LogCell(At(d.rows[i], "adr"), log1p)
    requires num2 == FillNa(num1, "adr", MeanCell(Col(num1.rows, "adr"), mean))
    ensures At(num2.rows[i], "adr") == Feature(d, log1p, mean, i, "adr")
  {
    assert num1.rows[i] in num1.rows;
    assert AdrFill(d, log1p, mean) == MeanCell(Col(num1.rows, "adr"), mean);
  }

  /** `y`: the target column of the frame handed in, with its index. */
  datatype Series = Series(index: seq<int>, values: seq<Cell>)

  datatype Xy = Xy(x: Frame, y: Series)

  /** The column names the preparation leaves: `adr_pp` and the useless columns are gone,
      and the date column, when present, is replaced by year, month and day. */
  function Remaining(df: Frame): set<string> {
    var kept := NameSet(df.columns) - {"adr_pp"} - UselessColumns;
    if HasColumn(df, DateColumn) then kept - DateDrops + {"year", "month", "day"} else kept
  }

  /** A column no step of the preprocessing singles out by name. */
  predicate Untouched(n: string) {
    n !in UselessColumns && n !in DateColumns && n != "adr_pp" && n != Target && n !in LogColumns
  }

  /** `preprocessing_df`: no row is removed, `X` holds every remaining column but the
      target, and `y` is the target column of the input. */
  function Preprocess(df: Frame, parse: Cell -> Option<Date>, log1p: real -> real, mean: seq<real> -> real): (r: Result<Xy, Error>)
    ensures !HasColumn(df, "adr_pp") || !(UselessColumns <= NameSet(df.columns)) || !HasColumn(df, Target) ==> r.Err?
    ensures r.Ok? ==> Labels(r.value.x.rows) == Labels(df.rows) && r.value.y.index == Labels(df.rows)
    ensures r.Ok? ==> |r.value.y.values| == |df.rows| && forall i :: 0 <= i < |df.rows| ==> r.value.y.values[i] == At(df.rows[i], Target)
    ensures r.Ok? ==> NameSet(r.value.x.columns) - {Target} == Remaining(df) - {Target}
    ensures r.Ok? && Wf(df) ==> Wf(r.value.x)
    ensures r.Ok? ==> ObjectsFirst(r.value.x.columns)
    ensures r.Ok? && Wf(df) ==> UntouchedInX(df, r.value.x)
    ensures r.Ok? ==> (HasColumn(r.value.x, Target) <==> Target in CatNames(df))
  {
    match Prepare(df, parse)
    case Err(e) => Err(e)
    case Ok(d) =>
      TargetRemains(df, d);
      match Assemble(d, log1p, mean)
      case Err(e) => Err(e)
      case Ok(x) =>
        XNames(x.columns, |CatColumns(d)|, CatNames(d), NameSet(d.columns));
        ObjectsFirstSplit(x.columns, CatColumns(d));
        UntouchedCells(df, log1p, mean, d, x);
        TargetKept(df, d);
        Ok(Xy(x, Series(Labels(df.rows), Col(df.rows, Target))))
  }

  /** Every column no step names reaches `x` encoded with its own table if it is an
      object column of `df`, and copied otherwise. */
  ghost predicate UntouchedInX(df: Frame, x: Frame) {
    |x.rows| == |df.rows| &&
    forall i, n :: 0 <= i < |df.rows| && Untouched(n)
                   ==> At(x.rows[i], n) == if n in CatNames(df) then EncodeCell(TableOf(n), At(df.rows[i], n))
                                          else At(df.rows[i], n)
  }

  lemma UntouchedCells(df: Frame, log1p: real -> real, mean: seq<real> -> real, d: Frame, x: Frame)
    requires forall n :: n !in UselessColumns && n !in DateColumns && n != "adr_pp" ==> SameCells(df, d, n)
    requires forall c: Column :: c.name !in UselessColumns && c.name !in DateColumns && c.name != "adr_pp"
                                 ==> (c in d.columns <==> c in df.columns)
    requires |x.rows| == |df.rows| && (Wf(df) ==> Assembled(d, log1p, mean, x))
    ensures Wf(df) ==> UntouchedInX(df, x)
  {
    if Wf(df) {
      forall n | Untouched(n) ensures forall i :: 0 <= i < |df.rows| ==>
                                        At(x.rows[i], n) == if n in CatNames(df) then EncodeCell(TableOf(n), At(df.rows[i], n))
                                                            else At(df.rows[i], n) {
        assert SameCells(df, d, n);
        CatNamesKept(df, d, n);
        KeptCells(df, log1p, mean, d, x, n);
      }
    }
  }

  /** No object column comes after a non-object one. */
  ghost predicate ObjectsFirst(cols: seq<Column>) {
    forall i, j :: 0 <= i < j < |cols| && cols[j].dtype == Object ==> cols[i].dtype == Object
  }

  lemma ObjectsFirstSplit(cols: seq<Column>, cats: seq<Column>)
    requires |cats| <= |cols| && cols[..|cats|] == cats && forall c :: c in cats ==> c.dtype == Object
    requires forall c :: c in cols[|cats|..] ==> c.dtype != Object
    ensures ObjectsFirst(cols)
  {
    forall k | |cats| <= k < |cols| ensures cols[k].dtype != Object {
      assert cols[k] in cols[|cats|..];
    }
    forall i, j | 0 <= i < j < |cols| && cols[j].dtype == Object ensures cols[i].dtype == Object {
      assert cols[i] in cats;
    }
  }

  /** A column the preparation leaves alone is an object column before it exactly when
      it is one after it. */
  lemma CatNamesKept(df: Frame, d: Frame, n: string)
    requires forall c: Column :: c.name == n ==> (c in d.columns <==> c in df.columns)
    ensures n in CatNames(d) <==> n in CatNames(df)
  {
    if n in CatNames(d) {
      var c :| c in CatColumns(d) && c.name == n;
      assert IsObject(c) && c in CatColumns(df);
    }
    if n in CatNames(df) {
      var c :| c in CatColumns(df) && c.name == n;
      assert IsObject(c) && c in CatColumns(d);
    }
  }

  /** The target is an object column after the preparation exactly when it was one before. */
  lemma TargetKept(df: Frame, d: Frame)
    requires forall c: Column :: c.name !in UselessColumns && c.name !in DateColumns && c.name != "adr_pp"
                                 ==> (c in d.columns <==> c in df.columns)
    ensures Target in CatNames(d) <==> Target in CatNames(df)
  {
    assert Target !in UselessColumns && Target !in DateColumns && Target != "adr_pp";
    CatNamesKept(df, d, Target);
  }

  lemma TargetRemains(df: Frame, d: Frame)
    requires !HasColumn(df, DateColumn) ==> NameSet(d.columns) == NameSet(df.columns) - {"adr_pp"} - UselessColumns
    requires HasColumn(df, DateColumn) ==>
               NameSet(d.columns) == NameSet(df.columns) - {"adr_pp"} - UselessColumns - DateDrops + {"year", "month", "day"}
    ensures NameSet(d.columns) == Remaining(df)
    ensures HasColumn(d, Target) <==> HasColumn(df, Target)
  {
  }

  lemma XNames(x: seq<Column>, k: int, cats: set<string>, names: set<string>)
    requires 0 <= k <= |x| && NameSet(x[..k]) == cats && cats <= names
    requires NameSet(x[k..]) == names - (cats + {Target})
    ensures NameSet(x) - {Target} == names - {Target}
    ensures Target in NameSet(x) <==> Target in cats
  {
    assert x == x[..k] + x[k..];
    NameSetConcat(x[..k], x[k..]);
  }
}


=== FILE: results.dfy ===
/** Failure-carrying return values. A pandas call that raises is modelled as `Err`,
    and `:-` propagates the first error exactly as an uncaught exception would. */
module Results {

  datatype Option<+T> = None | Some(value: T)

  datatype Result<+T, +E> = Ok(value: T) | Err(error: E) {

    predicate IsFailure() {
      Err?
    }

    function PropagateFailure<U>(): Result<U, E>
      requires Err?
    {
      Err(error)
    }

    function Extract(): T
      requires Ok?
    {
      value
    }
  }
}

=== FILE: seqs.dfy ===
/** Order-preserving filters, element-wise maps and the subsequence relation. */
module Seqs {

  /** The elements of `s` that satisfy `keep`, in their original order. */
  function Filter<T>(s: seq<T>, keep: T -> bool): (r: seq<T>)
    ensures |r| <= |s|
    ensures forall x :: x in r ==> x in s && keep(x)
    ensures forall x :: x in s && keep(x) ==> x in r
  {
    if |s| == 0 then []
    else if keep(s[0]) then [s[0]] + Filter(s[1..], keep)
    else Filter(s[1..], keep)
  }

  /** `f` applied to every element of `s`. */
  function Map<T, U>(f: T -> U, s: seq<T>): (r: seq<U>)
    ensures |r| == |s|
    ensures forall i :: 0 <= i < |s| ==> r[i] == f(s[i])
  {
    if |s| == 0 then [] else [f(s[0])] + Map(f, s[1..])
  }

  /** The number of elements of `s` that satisfy `p`. */
  function CountWhere<T>(s: seq<T>, p: T -> bool): (n: nat)
    ensures n <= |s|
  {
    if |s| == 0 then 0 else (if p(s[0]) then 1 else 0) + CountWhere(s[1..], p)
  }

  function Negate<T>(p: T -> bool): T -> bool {
    x => !p(x)
  }

  /** `a` is obtained from `b` by deleting elements, without reordering. */
  ghost predicate IsSubseq<T>(a: seq<T>, b: seq<T>)
    decreases |b|
  {
    |a| == 0 || (|b| > 0 && ((a[0] == b[0] && IsSubseq(a[1..], b[1..])) || IsSubseq(a, b[1..])))
  }

  /** A filter removes exactly the elements that fail `keep`. */
  lemma {:induction false} FilterLength<T>(s: seq<T>, keep: T -> bool)
    ensures |Filter(s, keep)| == |s| - CountWhere(s, Negate(keep))
  {
    if |s| > 0 {
      FilterLength(s[1..], keep);
    }
  }

  /** A filter keeps the survivors in their original order. */
  lemma {:induction false} FilterIsSubseq<T>(s: seq<T>, keep: T -> bool)
    ensures IsSubseq(Filter(s, keep), s)
  {
    if |s| > 0 {
      FilterIsSubseq(s[1..], keep);
      if keep(s[0]) {
        var r := Filter(s, keep);
        assert r[0] == s[0] && r[1..] == Filter(s[1..], keep);
      }
    }
  }

  lemma {:induction false} SubseqTrans<T>(a: seq<T>, b: seq<T>, c: seq<T>)
    requires IsSubseq(a, b) && IsSubseq(b, c)
    ensures IsSubseq(a, c)
    decreases |c|
  {
    if |a| > 0 {
      if IsSubseq(b, c[1..]) {
        SubseqTrans(a, b, c[1..]);
      } else if a[0] == b[0] && IsSubseq(a[1..], b[1..]) {
        SubseqTrans(a[1..], b[1..], c[1..]);
      } else {
        SubseqTrans(a, b[1..], c[1..]);
      }
    }
  }

  /** Deleting elements and then mapping equals mapping and then deleting. */
  lemma {:induction false} SubseqMap<T, U>(f: T -> U, a: seq<T>, b: seq<T>)
    requires IsSubseq(a, b)
    ensures IsSubseq(Map(f, a), Map(f, b))
    decreases |b|
  {
    if |a| > 0 {
      var fa, fb := Map(f, a), Map(f, b);
      assert fb[1..] == Map(f, b[1..]);
      if a[0] == b[0] && IsSubseq(a[1..], b[1..]) {
        SubseqMap(f, a[1..], b[1..]);
        assert fa[1..] == Map(f, a[1..]);
      } else {
        SubseqMap(f, a, b[1..]);
      }
    }
  }

  /** A subsequence of `s` whose elements all satisfy `keep` is no longer than the filter. */
  lemma {:induction false} SubseqBound<T>(a: seq<T>, s: seq<T>, keep: T -> bool)
    requires IsSubseq(a, s) && forall x :: x in a ==> keep(x)
    ensures |a| <= |s| - CountWhere(s, Negate(keep))
    decreases |s|
  {
    if |a| > 0 {
      if a[0] == s[0] && IsSubseq(a[1..], s[1..]) {
        assert a[0] in a;
        assert forall x :: x in a[1..] ==> x in a;
        SubseqBound(a[1..], s[1..], keep);
      } else {
        SubseqBound(a, s[1..], keep);
      }
    }
  }

  /** Order, membership and count pin a filter down: a subsequence of `s` whose elements
      all satisfy `keep`, as long as the filter, is the filter. */
  lemma {:induction false} SubseqFilter<T>(a: seq<T>, s: seq<T>, keep: T -> bool)
    requires IsSubseq(a, s) && forall x :: x in a ==> keep(x)
    requires |a| == |s| - CountWhere(s, Negate(keep))
    ensures a == Filter(s, keep)
    decreases |s|
  {
    if |s| > 0 {
      if keep(s[0]) {
        if !(a[0] == s[0] && IsSubseq(a[1..], s[1..])) {
          SubseqBound(a, s[1..], keep);
          assert false;
        }
        assert forall x :: x in a[1..] ==> x in a;
        SubseqFilter(a[1..], s[1..], keep);
        assert a == [a[0]] + a[1..];
      } else {
        if |a| > 0 {
          assert a[0] in a;
        }
        SubseqFilter(a, s[1..], keep);
      }
    }
  }

  /** Two filters in a row are one filter by the conjunction. */
  lemma {:induction false} FilterFuse<T>(s: seq<T>, p: T -> bool, q: T -> bool, both: T -> bool)
    requires forall x :: both(x) == (p(x) && q(x))
    ensures Filter(Filter(s, p), q) == Filter(s, both)
  {
    if |s| > 0 {
      FilterFuse(s[1..], p, q, both);
      if p(s[0]) {
        assert Filter(s, p) == [s[0]] + Filter(s[1..], p);
        assert (Filter(s, p))[1..] == Filter(s[1..], p);
      }
    }
  }
}
